=== FILE: README.md ===
# Java debug agent, modelled in Dafny

This project models the core of a small Java instrumentation agent. The agent
is loaded with `-javaagent:agent.jar=key1=value1;key2=value2` and does the
following:

- It reads its options into a map.
- It turns each requested method selector into a value. A selector has the
  form `Owner::name(Type1, Type2)`. The selectors come from the `methods`
  option (separated by `|`), or from eight built-in network selectors when
  that option is absent.
- It groups the selectors by owner class.
- It registers a class-file transformer. For every class that has selectors,
  the transformer uses Javassist to:
  - load the class;
  - find each selected method by its name and parameter types;
  - insert a print statement after the method's body (arguments and return
    value);
  - add a catch clause (arguments and the exception, which is then thrown
    again);
  - write the class back out.

  Every other class is left unchanged.

The modules follow the one source file, `DebugAgentMain.java`:

| module | what it holds |
|---|---|
| `JavaStrings` | The `java.lang.String` operations the agent uses, with Java's edge cases: `trim` (the two loops over the character array), `split` on a one-character separator (trailing empty pieces are dropped, and a text without the separator comes back whole), `replace`, and the digits `StringBuilder.append(int)` writes. |
| `AgentArgs` | `parseAgentArgs`, as a loop that fills a map, proved against a fold over the `;`-separated entries. Also the `debug` switch. |
| `MethodDescs` | `MethodDesc` and `parseMethodDesc`. The selector pattern is scanned directly. The parser is then proved to accept exactly the language of the pattern. |
| `Javassist` | The library, seen from outside. The class pool is a value whose function-typed fields decide which classes load, which declared method a name and parameter list select, which code fragments compile, and which classes can be written out. `CtClass` is a class whose list of edits grows in place. |
| `LogTemplates` | `getCodeLogMethodArgsAndResult` as a `StringBuilder`-style loop, proved equal to a specification function. Also the success fragment and the error fragment. |
| `Transformers` | `transform`, `instrumentClass`, `instrumentMethod`, `getCtClass` and `logReturn`. The methods change a `CtClass` in place. Functions state the resulting edits and bytes. |
| `Premain` | The start-up pipeline: options, then selectors, then trim, parse, filter and group. It also proves what the defaults become. |

Behaviour of the source worth knowing:

- **Empty argument list.** A selector with an empty argument list, such as
  `Owner::m()`, does not match the pattern `([^:]+)::([^(]+)\(([^)]+)\)`
  and is rejected. Zero argument types are written `Owner::m(,)`, because
  splitting `","` leaves no pieces.
- **A class where no method was instrumented.** Such a class is still written
  back out: `instrumentClass` returns the rebuilt bytes, not `null`.
- **Zero parameters in the log statement.** For a method without parameters,
  the argument list in the print statement is empty text. The two ` + `
  around it meet (`"(" +  + ")"`). The statement does not render `()`.
- **Blank `methods` value.** `methods= ` (a blank value) yields one empty
  selector, which does not parse. The table is then empty; the defaults are
  not used. `methods=` with nothing after it is different: splitting on `=`
  drops the empty value, the entry is ignored, and the defaults apply.
- **Empty argument type.** An argument type can be empty text, as in `a::b(x,,y)`.

## Model

| member | source | states |
|---|---|---|
| `JavaStrings.Trim` | src/main/java/com/debugAgent/DebugAgentMain.java:99 | `trim` gives a text that neither starts nor ends with a space character (a code point up to U+0020), no longer than the input |
| `JavaStrings.TrimSpec` | src/main/java/com/debugAgent/DebugAgentMain.java:112 | what `trim` removes is a run of spaces at the front and a run of spaces at the back; the result is the contiguous middle |
| `JavaStrings.TrimOfTrimmed` | src/main/java/com/debugAgent/DebugAgentMain.java:76 | `trim` leaves a text alone when its ends are not spaces |
| `JavaStrings.TrimSkipsSpace` | src/main/java/com/debugAgent/DebugAgentMain.java:112 | spaces in front of a text do not change what `trim` returns |
| `JavaStrings.Split` | src/main/java/com/debugAgent/DebugAgentMain.java:93 | `split` returns a text that lacks the separator whole, so `""` gives `[""]` |
| `JavaStrings.SplitSpec` | src/main/java/com/debugAgent/DebugAgentMain.java:94 | when the separator occurs, the result is the raw pieces up to the last non-empty one, and every piece dropped is empty; no piece holds the separator |
| `JavaStrings.SplitOfSeparator` | src/main/java/com/debugAgent/DebugAgentMain.java:111 | a separator alone splits into no pieces at all |
| `JavaStrings.SplitJoin` | src/main/java/com/debugAgent/DebugAgentMain.java:111 | splitting undoes joining, when no part holds the separator and the last part is not empty |
| `JavaStrings.RawSplitSpec` | src/main/java/com/debugAgent/DebugAgentMain.java:93-94 | the raw pieces joined with the separator give back the text, and no piece holds the separator |
| `JavaStrings.RawSplitJoin` | src/main/java/com/debugAgent/DebugAgentMain.java:93-94 | raw splitting undoes joining when no part holds the separator |
| `JavaStrings.ReplaceChar` | src/main/java/com/debugAgent/DebugAgentMain.java:141 | `replace` keeps the length, replaces every occurrence of the character and changes nothing else; none of the replaced character remains |
| `JavaStrings.ReplaceCharAbsent` | src/main/java/com/debugAgent/DebugAgentMain.java:141 | a text without the character is returned unchanged |
| `JavaStrings.Decimal` | src/main/java/com/debugAgent/DebugAgentMain.java:233 | the digits `append(int)` writes: at least one digit, only digits, and no leading zero for a positive number |
| `JavaStrings.DecimalRoundTrip` | src/main/java/com/debugAgent/DebugAgentMain.java:233 | reading the digits back gives the number |
| `AgentArgs.ParseAgentArgs` | src/main/java/com/debugAgent/DebugAgentMain.java:86-103 | the loop fills exactly the map of the fold over the `;`-separated entries, and `null` gives the empty map |
| `AgentArgs.EntryAccepted` | src/main/java/com/debugAgent/DebugAgentMain.java:94-99 | an entry is kept exactly when its second `=`-field is non-empty and every later field is empty; key and value are then the first two fields, trimmed |
| `AgentArgs.PairAccepted` | src/main/java/com/debugAgent/DebugAgentMain.java:94-99 | `key=value` with a non-empty value and no other `=` stores the trimmed key and the trimmed value |
| `AgentArgs.MissingValueRejected` | src/main/java/com/debugAgent/DebugAgentMain.java:94-98 | `key=` is skipped, because the empty value is dropped by `split` |
| `AgentArgs.ThreeFieldsRejected` | src/main/java/com/debugAgent/DebugAgentMain.java:94-98 | `a=b=c` with a non-empty last field is skipped |
| `AgentArgs.TooManyFieldsRejected` | src/main/java/com/debugAgent/DebugAgentMain.java:94-98 | any entry with three or more raw fields whose last field is non-empty is skipped |
| `AgentArgs.ThreeFieldsSplit` | src/main/java/com/debugAgent/DebugAgentMain.java:94 | `a=b=c` splits into exactly its three fields |
| `AgentArgs.NoEqualsRejected` | src/main/java/com/debugAgent/DebugAgentMain.java:94-98 | an entry without `=` (the empty entry among them) is skipped |
| `AgentArgs.PutKeys` | src/main/java/com/debugAgent/DebugAgentMain.java:93-100 | a key is in the map exactly when some kept entry sets it |
| `AgentArgs.PutLastWins` | src/main/java/com/debugAgent/DebugAgentMain.java:99 | when a key is set several times, the last kept entry decides its value |
| `AgentArgs.LastSetter` | src/main/java/com/debugAgent/DebugAgentMain.java:93-100 | a key that is set has a last kept entry that sets it |
| `AgentArgs.DebugFlagFromEntries` | src/main/java/com/debugAgent/DebugAgentMain.java:67 | the debug flag is on exactly when the last kept `debug` entry has the trimmed value `true` |
| `AgentArgs.PutTrimmed` | src/main/java/com/debugAgent/DebugAgentMain.java:99 | the map built from entries with trimmed keys and trimmed values holds only trimmed keys and trimmed values |
| `AgentArgs.AgentArgsTrimmed` | src/main/java/com/debugAgent/DebugAgentMain.java:86-103 | every stored key and value is trimmed |
| `MethodDescs.ParseComplete` | src/main/java/com/debugAgent/DebugAgentMain.java:105-114 | a text that matches the pattern parses, with the three groups as owner, name and argument text (split on `,` and trimmed) |
| `MethodDescs.ParseSound` | src/main/java/com/debugAgent/DebugAgentMain.java:105-114 | whatever parses matches the pattern, and the returned owner and name are its groups verbatim (with the helper `Assemble`: the groups and the fixed punctuation make up the whole text) |
| `MethodDescs.ParseSucceedsIff` | src/main/java/com/debugAgent/DebugAgentMain.java:46 | the parser succeeds exactly on the texts the pattern matches as a whole |
| `MethodDescs.ClassStep` | src/main/java/com/debugAgent/DebugAgentMain.java:46 | after a non-empty owner without `:`, the first `::` is where the owner ends |
| `MethodDescs.MethodStep` | src/main/java/com/debugAgent/DebugAgentMain.java:46 | the method name ends at the first `(` |
| `MethodDescs.ArgStep` | src/main/java/com/debugAgent/DebugAgentMain.java:46 | a non-empty argument text without `)`, followed by the closing `)`, is accepted |
| `MethodDescs.ClassGroup` | src/main/java/com/debugAgent/DebugAgentMain.java:108 | a parsed text starts with a non-empty owner without `:`, followed by `::` |
| `MethodDescs.MethodGroup` | src/main/java/com/debugAgent/DebugAgentMain.java:109 | after the owner comes a non-empty name without `(`, followed by `(` |
| `MethodDescs.ArgGroup` | src/main/java/com/debugAgent/DebugAgentMain.java:110 | the text ends with a non-empty argument text without `)`, followed by `)` |
| `MethodDescs.EmptyArgListRejected` | src/main/java/com/debugAgent/DebugAgentMain.java:46 | `Owner::m()` is rejected: the argument group must not be empty |
| `MethodDescs.OwnerEmptyArgsRejected` | src/main/java/com/debugAgent/DebugAgentMain.java:105-117 | the concrete selector `Owner::m()` parses to nothing |
| `MethodDescs.CommaOnlyMeansNoArgs` | src/main/java/com/debugAgent/DebugAgentMain.java:111-113 | `Owner::m(,)` selects the method with no argument types |
| `MethodDescs.RoundTrip` | src/main/java/com/debugAgent/DebugAgentMain.java:105-114 | writing a selector with `,` between trimmed, non-empty argument types and parsing it gives the same selector back |
| `MethodDescs.ArgTypesOfTokens` | src/main/java/com/debugAgent/DebugAgentMain.java:111-113 | argument types joined with `,` split and trim back into the same list |
| `MethodDescs.ArgTypesOfTrimmedPieces` | src/main/java/com/debugAgent/DebugAgentMain.java:111-113 | the argument types are the `,`-pieces, each trimmed, in order |
| `MethodDescs.ParseJoinedPieces` | src/main/java/com/debugAgent/DebugAgentMain.java:105-114 | a selector whose argument text is `,`-joined pieces parses to those pieces, each trimmed |
| `MethodDescs.ArgTypesOfPieces` | src/main/java/com/debugAgent/DebugAgentMain.java:111-113 | when the argument text splits into given pieces, the argument types are those pieces, each trimmed |
| `Javassist.CtClass.constructor` | src/main/java/com/debugAgent/DebugAgentMain.java:155 | a freshly loaded class carries no edits |
| `Javassist.CtClass.Apply` | src/main/java/com/debugAgent/DebugAgentMain.java:200-205 | `insertAfter` or `addCatch` records the edit exactly when it compiles, and otherwise leaves the class unchanged |
| `Javassist.CtClass.ToBytecode` | src/main/java/com/debugAgent/DebugAgentMain.java:161 | the class file is that of the class with every recorded edit |
| `Javassist.Get` | src/main/java/com/debugAgent/DebugAgentMain.java:155 | `pool.get` throws `NotFoundException`, which `instrumentClass` catches and turns into `null`, exactly for a name the pool cannot load (the model returns `null` for that exception); otherwise it yields a fresh class of that name without edits |
| `LogTemplates.BuildLogCode` | src/main/java/com/debugAgent/DebugAgentMain.java:211-246 | the buffer loop builds exactly the statement `LogCode` describes (the helper `LogCodeParts` joins the prefix, the argument list and the closing appends) |
| `LogTemplates.ArgumentStep` | src/main/java/com/debugAgent/DebugAgentMain.java:229-234 | each round appends `$i`, preceded by ` + ", " + ` except in the first round; after round `i` the buffer holds `$1` … `$i` joined by the separator |
| `LogTemplates.PlaceholdersDistinct` | src/main/java/com/debugAgent/DebugAgentMain.java:233 | different parameter numbers give different placeholders |
| `LogTemplates.PlaceholderNumber` | src/main/java/com/debugAgent/DebugAgentMain.java:229-234 | the `k`-th placeholder (counting from 0) is `$` followed by the digits of `k + 1` |
| `LogTemplates.ArgumentListSnoc` | src/main/java/com/debugAgent/DebugAgentMain.java:230-233 | from one parameter on, one more parameter appends the separator and the next placeholder |
| `LogTemplates.NoArgumentText` | src/main/java/com/debugAgent/DebugAgentMain.java:227-237 | with no parameters, ` + ` is followed directly by ` + ")"` |
| `LogTemplates.LogCodeShape` | src/main/java/com/debugAgent/DebugAgentMain.java:215-243 | every statement starts with `System.err.println(`, then the time-and-thread prefix, then `"Simple::name(`, and ends with ` + " => " + <result>);` |
| `LogTemplates.ResultOnlyDifference` | src/main/java/com/debugAgent/DebugAgentMain.java:199-203 | the success statement (`$_`) and the error statement (`$ex`) differ only in the printed result, which sits just before `);` |
| `Transformers.ResolveTypes` | src/main/java/com/debugAgent/DebugAgentMain.java:172-174 | the parameter types resolve exactly when every name resolves, giving the resolved types in order; otherwise the error is that of the first name that fails |
| `Transformers.ResolveTypeRule` | src/main/java/com/debugAgent/DebugAgentMain.java:183-192 | `int` is the primitive type whatever the pool holds; any other name resolves exactly when the pool can load it, to that class |
| `Transformers.ReturnEditsSpec` | src/main/java/com/debugAgent/DebugAgentMain.java:194-209 | `logReturn` adds at most two edits, both to the method it was given: first the print of `$_`, then, exactly when the first compiled, `java.lang.Exception` loads and the clause compiles, a catch clause for `java.lang.Exception` bound to `$ex` that ends by throwing `$ex` again |
| `Transformers.LogReturn` | src/main/java/com/debugAgent/DebugAgentMain.java:194-209 | the class gains the success edit, then the catch edit for `java.lang.Exception`; a step that fails ends the attempt and keeps what was already applied |
| `Transformers.InstrumentMethod` | src/main/java/com/debugAgent/DebugAgentMain.java:170-181 | one selector adds the edits of `logReturn` on the declared method; an unresolved type or a missing method changes nothing |
| `Transformers.InstrumentClass` | src/main/java/com/debugAgent/DebugAgentMain.java:150-168 | the result is `null` when the class cannot be loaded, and otherwise the class file after all edits of all selectors in order |
| `Transformers.Transform` | src/main/java/com/debugAgent/DebugAgentMain.java:140-148 | the result is what the table entry for the dotted class name gives, and `null` when there is no entry |
| `Transformers.ClassEditsAppend` | src/main/java/com/debugAgent/DebugAgentMain.java:157-159 | the edits for a list of selectors are the edits for its first part followed by those for the rest |
| `Transformers.FailedSelectorSkipped` | src/main/java/com/debugAgent/DebugAgentMain.java:178-180 | a selector that fails changes nothing, and the other selectors have the same effect as if it were absent |
| `Transformers.SkippedLast` | src/main/java/com/debugAgent/DebugAgentMain.java:157-159 | a failing last selector leaves the edits of the earlier ones unchanged |
| `Transformers.EditsTargetSelectedMethods` | src/main/java/com/debugAgent/DebugAgentMain.java:170-209 | at most two edits are made per selector, and every edit lands on a method that `getDeclaredMethod` returned for one selector's name and that selector's resolved parameter types |
| `Transformers.MethodEditTarget` | src/main/java/com/debugAgent/DebugAgentMain.java:176-177 | the parameter types of a selector that makes an edit all resolve, and the method it edits is the one `getDeclaredMethod` returned for its name and those resolved types |
| `Transformers.NothingInstrumentedStillRebuilt` | src/main/java/com/debugAgent/DebugAgentMain.java:161-163 | a loadable class whose selectors all fail is still written out (without edits), not passed through |
| `Transformers.NoEdits` | src/main/java/com/debugAgent/DebugAgentMain.java:157-159 | when every selector fails there are no edits |
| `Transformers.PassThrough` | src/main/java/com/debugAgent/DebugAgentMain.java:141-147 | a class is changed only when its dotted name has a table entry and the pool can load it |
| `Transformers.DottedNameUnchanged` | src/main/java/com/debugAgent/DebugAgentMain.java:141-143 | a name without `/` is looked up as it is |
| `Premain.Texts` | src/main/java/com/debugAgent/DebugAgentMain.java:51-60 | one selector text per selector, in order |
| `Premain.Premain` | src/main/java/com/debugAgent/DebugAgentMain.java:62-84 | the registered transformer carries the debug flag and the selectors grouped by class, from the parsed options |
| `Premain.ParseEach` | src/main/java/com/debugAgent/DebugAgentMain.java:76-77 | one parse result per selector text |
| `Premain.Present` | src/main/java/com/debugAgent/DebugAgentMain.java:78-79 | filtering keeps at most as many selectors as there were results |
| `Premain.PresentAppend` | src/main/java/com/debugAgent/DebugAgentMain.java:78-79 | filtering a concatenation filters each part on its own |
| `Premain.ParseEachAppend` | src/main/java/com/debugAgent/DebugAgentMain.java:76-77 | parsing a concatenation parses each part |
| `Premain.ParseEachIndex` | src/main/java/com/debugAgent/DebugAgentMain.java:76-77 | the `i`-th result is the parse of the `i`-th text, trimmed |
| `Premain.ParseAllSkipsMalformed` | src/main/java/com/debugAgent/DebugAgentMain.java:75-79 | a malformed selector is dropped, and the order of the others is kept, as if it had not been written |
| `Premain.DroppedSelector` | src/main/java/com/debugAgent/DebugAgentMain.java:78 | a single malformed selector contributes nothing |
| `Premain.PresentSpec` | src/main/java/com/debugAgent/DebugAgentMain.java:78-79 | a selector is kept exactly when it is one of the parse results |
| `Premain.ParseAllSound` | src/main/java/com/debugAgent/DebugAgentMain.java:75-79 | the kept selectors are exactly the parse results of the texts that parse |
| `Premain.GroupByClassSpec` | src/main/java/com/debugAgent/DebugAgentMain.java:80 | a class is a key exactly when some selector names it, and its list holds that class's selectors in input order |
| `Premain.SelectClassSpec` | src/main/java/com/debugAgent/DebugAgentMain.java:80 | a class's list holds only selectors for that class, and is non-empty exactly when one exists |
| `Premain.SelectMember` | src/main/java/com/debugAgent/DebugAgentMain.java:80 | every selector is in the list for its own class |
| `Premain.GroupComplete` | src/main/java/com/debugAgent/DebugAgentMain.java:80 | every parsed selector's class is a key of the table, and the selector appears in that class's list |
| `Premain.GroupKeys` | src/main/java/com/debugAgent/DebugAgentMain.java:80 | the keys are exactly the class names of the selectors |
| `Premain.GroupTotal` | src/main/java/com/debugAgent/DebugAgentMain.java:80 | the list lengths add up to the number of selectors, so none is lost or duplicated (the helper `TotalRemove` makes the sum independent of the order of the keys) |
| `Premain.DebugSwitch` | src/main/java/com/debugAgent/DebugAgentMain.java:67 | the transformer's debug flag is on exactly when the last kept `debug` entry reads `true` |
| `Premain.BlankMethodsSelectNothing` | src/main/java/com/debugAgent/DebugAgentMain.java:70-72 | a blank `methods` value gives an empty table, not the defaults |
| `Premain.TrimSpaced` | src/main/java/com/debugAgent/DebugAgentMain.java:112 | the space after a comma is trimmed away |
| `Premain.QualifiedNameFacts` | src/main/java/com/debugAgent/DebugAgentMain.java:46 | a name spelled like the defaults (ASCII letters, digits, `_`, `$` and `.`) is trimmed and holds none of the selector punctuation `:`, `(`, `,` or `)` |
| `Premain.TextParses` | src/main/java/com/debugAgent/DebugAgentMain.java:51-60 | a selector written as the defaults are written, with `, ` between argument types, parses back to itself (the helpers `Spaced` and `JoinSpaced` turn the `, `-list into `,`-joined pieces) |
| `Premain.ArgumentPieces` | src/main/java/com/debugAgent/DebugAgentMain.java:111-113 | the `, `-separated argument list splits on `,` into pieces that trim back to the types |
| `Premain.TextsParse` | src/main/java/com/debugAgent/DebugAgentMain.java:75-79 | a list of well-spelled selectors, written out and parsed again, comes back complete and in order |
| `Premain.TextsIndex` | src/main/java/com/debugAgent/DebugAgentMain.java:51-60 | the `i`-th text is the text of the `i`-th selector |
| `Premain.AllParse` | src/main/java/com/debugAgent/DebugAgentMain.java:75-79 | when every text parses, the kept selectors are the results, in order |
| `Premain.DefaultsWellSpelled` | src/main/java/com/debugAgent/DebugAgentMain.java:51-60 | every default owner, method name and argument type is spelled with ASCII letters, digits, `_`, `$` and `.` only, and every default has at least one argument type |
| `Premain.DefaultsParse` | src/main/java/com/debugAgent/DebugAgentMain.java:51-60 | all eight defaults parse, to the intended selectors, in order |
| `Premain.DefaultTable` | src/main/java/com/debugAgent/DebugAgentMain.java:70-80 | without a `methods` option the table has four classes, with lists of two, two, one and three selectors (the helper lemmas for the name checks and the runs of the grouping carry no row) |
| `Premain.NoOptionsUseDefaults` | src/main/java/com/debugAgent/DebugAgentMain.java:62-80 | with `null` or empty options, debugging is off and the defaults are instrumented |
| `Premain.DefaultGrouping` | src/main/java/com/debugAgent/DebugAgentMain.java:80 | grouping the eight defaults gives the four runs of the default table (the helpers `GroupRuns`, `GroupSnoc`, `GroupNewKey` and `GroupSameKey` prove it for any eight selectors whose owners come in runs of two, two, one and three) |

## Left out

- `TestMain.java` is a manual test driver and is not part of this model.
- Logging (`logError`, `logDebug`) writes to standard error and has no effect on any result, so it is left out. The `debug` flag is modelled; what it prints is not.
- `ctClass.detach()` and the class pool's cache and frozen-class state are left out. The pool is a value, and loading the same class again starts from a class without edits.
- Javassist's internals are left out: class loading, method lookup, the source compiler behind `insertAfter`/`addCatch`, and `toBytecode`. They are parameters of the pool, so every outcome a stateless library could produce is covered, failure included. A library whose answers depend on what was done to the class before is not covered (see the next two lines). In particular, the model does not decide whether the zero-parameter statement, with its adjacent ` +  + `, compiles.
- `getDeclaredMethod` is looked up on the class as loaded; edits made earlier in the loop are assumed not to change which methods are declared.
- Whether `insertAfter`/`addCatch` compile is taken to depend on the edit alone, not on edits made earlier to the class. This matters when two selectors find the same method, for instance a duplicate selector, or `Socket::connect(java.net.SocketAddress,int)` next to `Socket::connect(java.net.SocketAddress, int)`: the second `insertAfter` then runs on a body already rewritten. `Transformers.ClassEditsAppend` relies on this assumption.
- `getParameterTypes` is taken to be the parameter list of the method `getDeclaredMethod` returns (the pool may return any list there). Its own `NotFoundException` is left out.
- `getSimpleName` is a parameter of the pool, not derived from the class name.
- Concurrency: the JVM may call `transform` from several threads. The table is immutable after start-up, so each call is modelled on its own.
- `transform` with a `null` class name, and the unused arguments of `transform` (loader, redefined class, protection domain, original bytes), are left out.
- `MethodDesc.toString` only feeds log messages and is left out.
- `Premain.Premain`: `inst.addTransformer` is modelled by returning the transformer that would be registered.
- `JavaStrings.Split`: only separators that match exactly one character are modelled (`;`, `=`, `,` and the escaped `|` of the source). General regular-expression splitting is left out.
- `JavaStrings.Decimal`: only non-negative numbers are rendered, because the loop counter starts at 1.
- `DEFAULT_INSTRUMENT_METHODS` is not written out as eight string literals. `Premain.DefaultInstrumentMethods` builds the texts with `Text` from the eight selector values in `Premain.DefaultDescs`, using `", "` between argument types. Read side by side, they match the literals at `DebugAgentMain.java` lines 52-59 character for character and in order. The match is not proved as an equality of string literals: comparing long literal strings exceeds the prover's resource limit.

=== FILE: agent_args.dfy ===
/** The agent's start-up options: the text after `-javaagent:…=` has the form
    `key1=value1;key2=value2` and is read into a map; `debug` switches the
    diagnostic output on. */
module AgentArgs {
  import opened Wrappers
  import opened JavaStrings

  /** One `;`-separated entry: accepted only when splitting it on `=` gives
      exactly two parts, and then stored with key and value trimmed. */
  function Entry(arg: string): Option<(string, string)>
  {
    var parts := Split(arg, '=');
    if |parts| != 2 then None else Some((Trim(parts[0]), Trim(parts[1])))
  }

  /** The entries of a `;`-split option string, each parsed on its own. */
  function Entries(args: seq<string>): seq<Option<(string, string)>>
  {
    seq(|args|, k requires 0 <= k < |args| => Entry(args[k]))
  }

  /** `e` is an accepted entry for `key`. */
  predicate Sets(e: Option<(string, string)>, key: string)
  {
    e.Some? && e.value.0 == key
  }

  /** The map after putting the accepted entries in order: a later entry for
      the same key overwrites an earlier one. */
  function Put(es: seq<Option<(string, string)>>): map<string, string>
  {
    if es == [] then map[]
    else
      var m := Put(es[..|es| - 1]);
      match es[|es| - 1]
      case None => m
      case Some(kv) => m[kv.0 := kv.1]
  }

  /** What `parseAgentArgs` returns: no options at all for a `null` argument string. */
  function AgentArgsMap(agentArgs: Option<string>): map<string, string>
  {
    match agentArgs
    case None => map[]
    case Some(s) => Put(Entries(Split(s, ';')))
  }

  /** `parseAgentArgs`: fills the map entry by entry, skipping malformed ones. */
  method ParseAgentArgs(agentArgs: Option<string>) returns (result: map<string, string>)
    ensures result == AgentArgsMap(agentArgs)
  {
    result := map[];
    if agentArgs.None? {
      return;
    }
    var args := Split(agentArgs.value, ';');
    ghost var es := Entries(args);
    for i := 0 to |args|
      invariant result == Put(es[..i])
    {
      assert es[..i + 1][..i] == es[..i];
      var arg := args[i];
      var argParts := Split(arg, '=');
      if |argParts| != 2 {
        continue;
      }
      result := result[Trim(argParts[0]) := Trim(argParts[1])];
    }
    assert es[..|args|] == es;
  }

  /** The `debug` option is on exactly when its stored value is `true`. */
  predicate DebugFlag(opts: map<string, string>)
  {
    "debug" in opts && opts["debug"] == "true"
  }

  /** An entry is accepted exactly when, among its `=`-separated fields, the
      second is not empty and every field after it is empty; key and value are
      then the first two fields, trimmed. So `a=b` and `a=b=` are accepted, while
      `a`, `a=` and `a=b=c` are not. */
  lemma EntryAccepted(arg: string)
    ensures var raw := RawSplit(arg, '=');
            Entry(arg).Some? <==> (|raw| >= 2 && raw[1] != "" && forall k :: 2 <= k < |raw| ==> raw[k] == "")
    ensures Entry(arg).Some? ==> Entry(arg).value == (Trim(RawSplit(arg, '=')[0]), Trim(RawSplit(arg, '=')[1]))
  {
    var raw := RawSplit(arg, '=');
    var parts := Split(arg, '=');
    SplitSpec(arg, '=');
    if '=' in arg {
      RawSplitHasTwo(arg, '=');
      if |parts| == 2 {
        assert parts == raw[..2];
      }
    }
  }

  /** `key=value` with a non-empty value and no further `=` is accepted. */
  lemma PairAccepted(key: string, value: string)
    requires '=' !in key && '=' !in value && value != ""
    ensures Entry(key + "=" + value) == Some((Trim(key), Trim(value)))
  {
    assert Join([key, value], "=") == key + "=" + value;
    RawSplitJoin([key, value], '=');
    EntryAccepted(key + "=" + value);
  }

  /** `key=` (such as `debug=`) is skipped: its empty value is dropped by the split. */
  lemma MissingValueRejected(key: string)
    requires '=' !in key
    ensures Entry(key + "=") == None
  {
    assert Join([key, ""], "=") == key + "=";
    RawSplitJoin([key, ""], '=');
    EntryAccepted(key + "=");
  }

  /** `a=b=c` is skipped: three non-empty fields are not a pair. */
  lemma ThreeFieldsRejected(a: string, b: string, c: string)
    requires '=' !in a && '=' !in b && '=' !in c && c != ""
    ensures Entry(a + "=" + b + "=" + c) == None
  {
    ThreeFieldsSplit(a, b, c, a + "=" + b + "=" + c);
    TooManyFieldsRejected(a + "=" + b + "=" + c);
  }

  lemma TooManyFieldsRejected(arg: string)
    requires var raw := RawSplit(arg, '='); |raw| >= 3 && raw[|raw| - 1] != ""
    ensures Entry(arg) == None
  {
    EntryAccepted(arg);
  }

  lemma ThreeFieldsSplit(a: string, b: string, c: string, arg: string)
    requires '=' !in a && '=' !in b && '=' !in c
    requires arg == a + "=" + b + "=" + c
    ensures RawSplit(arg, '=') == [a, b, c]
  {
    var bc := Join([b, c], ['=']);
    assert [b, c][1..] == [c];
    assert Join([c], ['=']) == c;
    assert bc == b + ['='] + c;
    assert [a, b, c][1..] == [b, c];
    assert Join([a, b, c], ['=']) == a + ['='] + bc;
    assert arg == a + ['='] + bc;
    RawSplitJoin([a, b, c], '=');
  }

  /** An entry without `=`, the empty entry among them, is skipped. */
  lemma NoEqualsRejected(arg: string)
    requires '=' !in arg
    ensures Entry(arg) == None
  {
  }

  /** A key is present exactly when some accepted entry sets it. */
  lemma {:induction false} PutKeys(es: seq<Option<(string, string)>>, key: string)
    ensures key in Put(es) <==> exists i :: 0 <= i < |es| && Sets(es[i], key)
  {
    if es != [] {
      var init := es[..|es| - 1];
      PutKeys(init, key);
      if exists i :: 0 <= i < |init| && Sets(init[i], key) {
        var i :| 0 <= i < |init| && Sets(init[i], key);
        assert es[i] == init[i];
      }
      if exists i :: 0 <= i < |es| && Sets(es[i], key) {
        var i :| 0 <= i < |es| && Sets(es[i], key);
        if i < |init| {
          assert es[i] == init[i];
        }
      }
    }
  }

  /** The last accepted entry for a key decides its value. */
  lemma {:induction false} PutLastWins(es: seq<Option<(string, string)>>, i: nat)
    requires i < |es| && es[i].Some?
    requires forall j :: i < j < |es| ==> !Sets(es[j], es[i].value.0)
    ensures es[i].value.0 in Put(es) && Put(es)[es[i].value.0] == es[i].value.1
  {
    var init := es[..|es| - 1];
    if i < |es| - 1 {
      assert init[i] == es[i];
      forall j | i < j < |init| ensures !Sets(init[j], es[i].value.0) {
        assert init[j] == es[j];
      }
      PutLastWins(init, i);
      assert !Sets(es[|es| - 1], es[i].value.0);
    }
  }

  /** The position of the last accepted entry for `key`, when there is one. */
  lemma {:induction false} LastSetter(es: seq<Option<(string, string)>>, key: string) returns (i: nat)
    requires exists i :: 0 <= i < |es| && Sets(es[i], key)
    ensures i < |es| && Sets(es[i], key)
    ensures forall j :: i < j < |es| ==> !Sets(es[j], key)
  {
    var n := |es| - 1;
    if Sets(es[n], key) {
      i := n;
    } else {
      var init := es[..n];
      var k :| 0 <= k < |es| && Sets(es[k], key);
      assert init[k] == es[k];
      i := LastSetter(init, key);
      assert es[i] == init[i];
      forall j | i < j < |es| ensures !Sets(es[j], key) {
        if j < n {
          assert es[j] == init[j];
        }
      }
    }
  }

  /** The debug flag is on exactly when the last accepted `debug` entry has the
      trimmed value `true`. */
  lemma DebugFlagFromEntries(es: seq<Option<(string, string)>>)
    ensures DebugFlag(Put(es)) <==>
            exists i :: 0 <= i < |es| && es[i] == Some(("debug", "true")) &&
                        forall j :: i < j < |es| ==> !Sets(es[j], "debug")
  {
    PutKeys(es, "debug");
    if "debug" in Put(es) {
      var i := LastSetter(es, "debug");
      PutLastWins(es, i);
      if exists i' :: 0 <= i' < |es| && es[i'] == Some(("debug", "true")) &&
                      forall j :: i' < j < |es| ==> !Sets(es[j], "debug") {
        var i' :| 0 <= i' < |es| && es[i'] == Some(("debug", "true")) &&
                  forall j :: i' < j < |es| ==> !Sets(es[j], "debug");
        assert Sets(es[i'], "debug");
        assert i' == i;
      }
    }
  }

  /** Every stored key and value is trimmed. */
  lemma {:induction false} PutTrimmed(es: seq<Option<(string, string)>>)
    requires forall i :: 0 <= i < |es| && es[i].Some? ==> IsTrimmed(es[i].value.0) && IsTrimmed(es[i].value.1)
    ensures forall k :: k in Put(es) ==> IsTrimmed(k) && IsTrimmed(Put(es)[k])
  {
    if es != [] {
      var init := es[..|es| - 1];
      forall i | 0 <= i < |init| && init[i].Some?
        ensures IsTrimmed(init[i].value.0) && IsTrimmed(init[i].value.1)
      {
        assert init[i] == es[i];
      }
      PutTrimmed(init);
    }
  }

  /** The parsed options hold trimmed keys and trimmed values only. */
  lemma AgentArgsTrimmed(agentArgs: Option<string>)
    ensures var opts := AgentArgsMap(agentArgs);
            forall k :: k in opts ==> IsTrimmed(k) && IsTrimmed(opts[k])
  {
    if agentArgs.Some? {
      PutTrimmed(Entries(Split(agentArgs.value, ';')));
    }
  }
}

=== FILE: java_strings.dfy ===
/** The few `java.lang.String` operations the agent relies on, with Java's
    own edge cases: `indexOf`, `trim`, `split` on a one-character literal
    separator, `replace` of one character by another, and the decimal
    rendering `StringBuilder.append(int)` produces. */
module JavaStrings {
  import opened Wrappers

  /** `String.indexOf(c)`: the first position holding `c`, if any. */
  function IndexOf(s: string, c: char): (r: Option<nat>)
    ensures r.None? <==> c !in s
    ensures r.Some? ==> r.value < |s| && s[r.value] == c
    ensures r.Some? ==> forall k :: 0 <= k < r.value ==> s[k] != c
  {
    if |s| == 0 then None
    else if s[0] == c then Some(0)
    else
      match IndexOf(s[1..], c)
      case None => None
      case Some(i) => Some(i + 1)
  }

  /** The first occurrence is the only position that holds `c` with no `c` before it. */
  lemma IndexOfUnique(s: string, c: char, i: nat)
    requires i < |s| && s[i] == c
    requires forall k :: 0 <= k < i ==> s[k] != c
    ensures IndexOf(s, c) == Some(i)
  {
  }

  /** Cutting a text around a known middle part. */
  lemma CutAround(s: string, i: nat, mid: string)
    requires i + |mid| <= |s|
    requires forall j :: 0 <= j < |mid| ==> s[i + j] == mid[j]
    ensures s == s[..i] + mid + s[i + |mid|..]
  {
    assert s[i..i + |mid|] == mid;
    assert s == s[..i] + s[i..i + |mid|] + s[i + |mid|..];
  }

  /** Characters `String.trim` removes: every code point up to U+0020. */
  predicate IsSpace(ch: char) { ch <= ' ' }

  predicate AllSpace(s: string) { forall k :: 0 <= k < |s| ==> IsSpace(s[k]) }

  /** A string `trim` leaves as it is. */
  predicate IsTrimmed(s: string) { s == [] || (!IsSpace(s[0]) && !IsSpace(s[|s| - 1])) }

  /** `trim`'s first loop: the first position from `i` on that holds no space. */
  function LeadingEnd(s: string, i: nat): (r: nat)
    requires i <= |s|
    ensures i <= r <= |s|
    ensures forall k :: i <= k < r ==> IsSpace(s[k])
    ensures r < |s| ==> !IsSpace(s[r])
    decreases |s| - i
  {
    if i < |s| && IsSpace(s[i]) then LeadingEnd(s, i + 1) else i
  }

  /** `trim`'s second loop: moves the end `j` back over spaces, never below `st`. */
  function TrailingStart(s: string, st: nat, j: nat): (r: nat)
    requires st <= j <= |s|
    ensures st <= r <= j
    ensures forall k :: r <= k < j ==> IsSpace(s[k])
    ensures r > st ==> !IsSpace(s[r - 1])
  {
    if st < j && IsSpace(s[j - 1]) then TrailingStart(s, st, j - 1) else j
  }

  /** `String.trim`: the text between the leading and the trailing spaces; the
      result neither starts nor ends with a space. */
  function Trim(s: string): (r: string)
    ensures IsTrimmed(r) && |r| <= |s|
  {
    var st := LeadingEnd(s, 0);
    s[st..TrailingStart(s, st, |s|)]
  }

  /** What `trim` removes is spaces only, from both ends. */
  lemma TrimSpec(s: string)
    ensures var r := Trim(s);
            exists i :: 0 <= i <= |s| - |r| && r == s[i..i + |r|] && AllSpace(s[..i]) && AllSpace(s[i + |r|..])
  {
    var i := LeadingEnd(s, 0);
    var j := TrailingStart(s, i, |s|);
    assert Trim(s) == s[i..j];
    assert AllSpace(s[..i]) && AllSpace(s[j..]);
  }

  lemma TrimOfTrimmed(s: string)
    requires IsTrimmed(s)
    ensures Trim(s) == s
  {
    if s != [] {
      assert LeadingEnd(s, 0) == 0;
      assert TrailingStart(s, 0, |s|) == |s|;
    }
  }

  /** Leading spaces do not change what `trim` gives. */
  lemma TrimSkipsSpace(sp: string, s: string)
    requires AllSpace(sp)
    ensures Trim(sp + s) == Trim(s)
  {
    var t := sp + s;
    var n := |sp|;
    var i := LeadingEnd(s, 0);
    var j := TrailingStart(s, i, |s|);
    LeadingEndShift(sp, s, 0);
    assert LeadingEnd(t, 0) == n + i;
    TrailingStartShift(sp, s, i, |s|);
    assert TrailingStart(t, n + i, |t|) == n + j;
    SliceAfterPrefix(sp, s, i, j);
  }

  lemma SliceAfterPrefix(sp: string, s: string, i: nat, j: nat)
    requires i <= j <= |s|
    ensures (sp + s)[|sp| + i..|sp| + j] == s[i..j]
  {
  }

  lemma {:induction false} LeadingEndShift(sp: string, s: string, i: nat)
    requires AllSpace(sp) && i <= |sp|
    ensures LeadingEnd(sp + s, i) == |sp| + LeadingEnd(s, 0)
    decreases |sp| - i
  {
    var t := sp + s;
    if i < |sp| {
      assert IsSpace(t[i]);
      LeadingEndShift(sp, s, i + 1);
    } else {
      LeadingEndTail(sp, s, 0);
    }
  }

  lemma {:induction false} LeadingEndTail(sp: string, s: string, i: nat)
    requires i <= |s|
    ensures LeadingEnd(sp + s, |sp| + i) == |sp| + LeadingEnd(s, i)
    decreases |s| - i
  {
    var t := sp + s;
    if i < |s| {
      assert t[|sp| + i] == s[i];
      if IsSpace(s[i]) {
        LeadingEndTail(sp, s, i + 1);
      }
    }
  }

  lemma {:induction false} TrailingStartShift(sp: string, s: string, st: nat, j: nat)
    requires st <= j <= |s|
    ensures TrailingStart(sp + s, |sp| + st, |sp| + j) == |sp| + TrailingStart(s, st, j)
  {
    var t := sp + s;
    if st < j {
      assert t[|sp| + j - 1] == s[j - 1];
      if IsSpace(s[j - 1]) {
        TrailingStartShift(sp, s, st, j - 1);
      }
    }
  }

  /** `String.join`-style concatenation of `parts` with `sep` between neighbours. */
  function Join(parts: seq<string>, sep: string): string
  {
    if |parts| == 0 then ""
    else if |parts| == 1 then parts[0]
    else parts[0] + sep + Join(parts[1..], sep)
  }

  lemma {:induction false} JoinSnoc(parts: seq<string>, x: string, sep: string)
    requires parts != []
    ensures Join(parts + [x], sep) == Join(parts, sep) + sep + x
  {
    if |parts| == 1 {
      assert parts + [x] == [parts[0], x];
    } else {
      assert (parts + [x])[1..] == parts[1..] + [x];
      JoinSnoc(parts[1..], x, sep);
    }
  }

  /** A character occurs in a join only if it occurs in a part or in the separator. */
  lemma {:induction false} NotInJoin(parts: seq<string>, sep: string, c: char)
    requires c !in sep
    requires forall k :: 0 <= k < |parts| ==> c !in parts[k]
    ensures c !in Join(parts, sep)
  {
    if |parts| > 1 {
      NotInJoin(parts[1..], sep, c);
    }
  }

  /** Every piece between occurrences of `c`, empty pieces included:
      `|RawSplit(s, c)|` is one more than the number of `c` in `s`. */
  function RawSplit(s: string, c: char): (r: seq<string>)
    ensures |r| >= 1
    decreases |s|
  {
    match IndexOf(s, c)
    case None => [s]
    case Some(i) => [s[..i]] + RawSplit(s[i + 1..], c)
  }

  /** Joining the pieces back with the separator gives the text, and no piece
      holds the separator. */
  lemma {:induction false} RawSplitSpec(s: string, c: char)
    ensures Join(RawSplit(s, c), [c]) == s
    ensures forall k :: 0 <= k < |RawSplit(s, c)| ==> c !in RawSplit(s, c)[k]
    decreases |s|
  {
    match IndexOf(s, c)
    case None =>
    case Some(i) =>
      var rest := RawSplit(s[i + 1..], c);
      RawSplitSpec(s[i + 1..], c);
      assert s == s[..i] + [c] + s[i + 1..];
      assert RawSplit(s, c) == [s[..i]] + rest;
      assert ([s[..i]] + rest)[1..] == rest;
  }

  /** A text with a separator in it has at least two pieces. */
  lemma RawSplitHasTwo(s: string, c: char)
    requires c in s
    ensures |RawSplit(s, c)| >= 2
  {
  }

  /** Splitting undoes joining with a separator no part contains. */
  lemma {:induction false} RawSplitJoin(parts: seq<string>, c: char)
    requires |parts| >= 1
    requires forall k :: 0 <= k < |parts| ==> c !in parts[k]
    ensures RawSplit(Join(parts, [c]), c) == parts
  {
    if |parts| == 1 {
      assert IndexOf(parts[0], c) == None;
    } else {
      var s := Join(parts, [c]);
      var tail := Join(parts[1..], [c]);
      assert s == parts[0] + [c] + tail;
      assert s[..|parts[0]|] == parts[0];
      IndexOfUnique(s, c, |parts[0]|);
      assert s[|parts[0]| + 1..] == tail;
      RawSplitJoin(parts[1..], c);
      assert parts == [parts[0]] + parts[1..];
    }
  }

  /** Java's `split` with limit 0 drops the empty pieces at the end. */
  function DropTrailingEmpty(pieces: seq<string>): (r: seq<string>)
    ensures |r| <= |pieces| && r == pieces[..|r|]
    ensures forall k :: |r| <= k < |pieces| ==> pieces[k] == ""
    ensures r != [] ==> r[|r| - 1] != ""
  {
    if |pieces| > 0 && pieces[|pieces| - 1] == "" then DropTrailingEmpty(pieces[..|pieces| - 1])
    else pieces
  }

  /** `s.split(c)` for a separator regex that matches exactly the character `c`:
      a string without `c` comes back whole (so `""` gives `[""]`); otherwise
      the pieces between separators, with the trailing empty pieces dropped
      (so `"a;"` gives `["a"]` and `";"` gives `[]`). */
  function Split(s: string, c: char): (r: seq<string>)
    ensures c !in s ==> r == [s]
  {
    if c !in s then [s] else DropTrailingEmpty(RawSplit(s, c))
  }

  /** With a separator present, the result is the raw pieces up to the last
      non-empty one; in every case no piece holds the separator. */
  lemma SplitSpec(s: string, c: char)
    ensures var r := Split(s, c);
            var raw := RawSplit(s, c);
            && (c in s ==> |r| <= |raw| && r == raw[..|r|] && (r != [] ==> r[|r| - 1] != ""))
            && (c in s ==> forall k :: |r| <= k < |raw| ==> raw[k] == "")
            && (forall k :: 0 <= k < |r| ==> c !in r[k])
  {
    RawSplitSpec(s, c);
  }

  /** A separator alone gives two empty pieces, both dropped. */
  lemma SplitOfSeparator(c: char)
    ensures Split([c], c) == []
  {
    assert IndexOf([c], c) == Some(0);
    assert [c][1..] == [];
    var empty: string := [];
    assert RawSplit([c], c) == [empty, empty];
    assert [empty, empty][..1] == [empty];
    assert DropTrailingEmpty([empty]) == [];
  }

  /** Round trip: splitting a join gives the parts back when no part holds the
      separator and the last part is not empty. */
  lemma SplitJoin(parts: seq<string>, c: char)
    requires |parts| >= 1 && parts[|parts| - 1] != ""
    requires forall k :: 0 <= k < |parts| ==> c !in parts[k]
    ensures Split(Join(parts, [c]), c) == parts
  {
    RawSplitJoin(parts, c);
    if |parts| > 1 {
      assert Join(parts, [c])[|parts[0]|] == c;
    }
    SplitSpec(Join(parts, [c]), c);
  }

  /** `s.replace(from, to)` for one-character arguments: every occurrence is replaced. */
  function ReplaceChar(s: string, from: char, to: char): (r: string)
    ensures |r| == |s|
    ensures from != to ==> from !in r
    ensures forall k :: 0 <= k < |s| && s[k] != from ==> r[k] == s[k]
    ensures forall k :: 0 <= k < |s| && s[k] == from ==> r[k] == to
  {
    if s == [] then []
    else [if s[0] == from then to else s[0]] + ReplaceChar(s[1..], from, to)
  }

  lemma ReplaceCharAbsent(s: string, from: char, to: char)
    requires from !in s
    ensures ReplaceChar(s, from, to) == s
  {
  }

  function DigitChar(d: nat): char
    requires d < 10
  {
    ('0' as int + d) as char
  }

  /** The decimal text `StringBuilder.append(int)` writes for a non-negative int. */
  function Decimal(n: nat): (r: string)
    ensures 1 <= |r|
    ensures forall k :: 0 <= k < |r| ==> '0' <= r[k] <= '9'
    ensures n > 0 ==> r[0] != '0'
  {
    if n < 10 then [DigitChar(n)] else Decimal(n / 10) + [DigitChar(n % 10)]
  }

  /** The number a string of decimal digits stands for. */
  function DecimalValue(s: string): nat
    requires forall k :: 0 <= k < |s| ==> '0' <= s[k] <= '9'
  {
    if s == [] then 0 else 10 * DecimalValue(s[..|s| - 1]) + (s[|s| - 1] as int - '0' as int)
  }

  /** Reading back the rendered digits gives the number: distinct numbers render distinctly. */
  lemma {:induction false} DecimalRoundTrip(n: nat)
    ensures DecimalValue(Decimal(n)) == n
  {
    if n >= 10 {
      DecimalRoundTrip(n / 10);
      var r := Decimal(n);
      assert r[..|r| - 1] == Decimal(n / 10);
      assert r[|r| - 1] as int - '0' as int == n % 10;
      assert n == 10 * (n / 10) + n % 10;
    }
  }
}

=== FILE: javassist.dfy ===
/** The part of the Javassist bytecode library the agent drives, seen from
    outside: which classes the default class pool can load, which declared
    method a name and parameter list select, whether the source compiler
    accepts a code fragment, and whether a class can be written back out.
    Each of these is a parameter of the model, so every outcome the library
    may produce, failure included, is covered. */
module Javassist {
  import opened Wrappers

  /** A `CtClass` used as a parameter type: the primitive `int` or a loaded class. */
  datatype CtType = IntType | ClassType(name: string)

  /** A declared method: its name and parameter types. */
  datatype CtMethod = CtMethod(name: string, params: seq<CtType>)

  /** A change made to a method body through `insertAfter` or `addCatch`. */
  datatype Edit =
    | InsertAfter(target: CtMethod, code: string)
    | AddCatch(target: CtMethod, code: string, exceptionType: CtType, exceptionName: string)

  type Bytes = seq<bv8>

  /** `ClassPool.getDefault()`. `classes` holds the qualified names the pool
      can load; `simpleName` is `getSimpleName` of a loaded class;
      `declaredMethod(c, name, params)` is `getDeclaredMethod` on class `c`
      (`None` stands for `NotFoundException`); `accepts` tells whether an edit
      compiles (otherwise `CannotCompileException`); `toBytecode(c, edits)` is
      the class file of `c` after `edits` (`None` for a failed write). */
  datatype ClassPool = ClassPool(
    classes: set<string>,
    simpleName: string -> string,
    declaredMethod: (string, string, seq<CtType>) -> Option<CtMethod>,
    accepts: Edit -> bool,
    toBytecode: (string, seq<Edit>) -> Option<Bytes>)

  /** The name `ClassPool.getDefault().getCtClass` is asked for when building
      the exception handler. */
  const ExceptionClassName: string := "java.lang.Exception"

  /** A class loaded for editing: its methods are changed in place, and the
      changes made so far are kept in order in `edits`. */
  class CtClass {
    const name: string
    var edits: seq<Edit>

    constructor (name: string)
      ensures this.name == name && edits == []
    {
      this.name := name;
      edits := [];
    }

    /** `m.insertAfter(code)` or `m.addCatch(code, type, name)` on one of this
        class's methods: the change is recorded exactly when it compiles. */
    method Apply(pool: ClassPool, e: Edit) returns (ok: bool)
      modifies this
      ensures ok == pool.accepts(e)
      ensures edits == if ok then old(edits) + [e] else old(edits)
    {
      ok := pool.accepts(e);
      if ok {
        edits := edits + [e];
      }
    }

    /** `toBytecode`: the class file with every change made so far. */
    method ToBytecode(pool: ClassPool) returns (r: Option<Bytes>)
      ensures r == pool.toBytecode(name, edits)
    {
      r := pool.toBytecode(name, edits);
    }
  }

  /** `pool.get(name)`: a class ready for editing, or `null` for `NotFoundException`. */
  method Get(pool: ClassPool, name: string) returns (c: CtClass?)
    ensures c == null <==> name !in pool.classes
    ensures c != null ==> fresh(c) && c.name == name && c.edits == []
  {
    if name in pool.classes {
      c := new CtClass(name);
    } else {
      c := null;
    }
  }
}

=== FILE: log_templates.dfy ===
/** The Java source fragments the agent injects into a selected method: one
    statement that prints the timestamp, the thread, `Class::method(args)` and
    the result (or the exception), built by `getCodeLogMethodArgsAndResult`. */
module LogTemplates {
  import opened JavaStrings

  /** Java expression for the current time as `yyyy-MM-dd HH:mm:ss.SSS`. */
  const TimeStampCode: string := "java.time.LocalDateTime.now().format(java.time.format.DateTimeFormatter.ofPattern(\"yyyy-MM-dd HH:mm:ss.SSS\"))"

  /** Java expression for the name of the running thread. */
  const ThreadNameCode: string := "java.lang.Thread.currentThread().getName()"

  /** Java expression for `<time> [<thread>] DebugAgent `. */
  const LogPrefixCode: string := TimeStampCode + " + \" [\" + " + ThreadNameCode + " + \"] DebugAgent \""

  /** What goes between two argument placeholders. */
  const ArgSeparator: string := " + \", \" + "

  /** What the printed text starts with. */
  const StatementStart: string := "System.err.println(" + LogPrefixCode + " + "

  /** Javassist's name for the `i`-th parameter of the method (counting from 1). */
  function Placeholder(i: nat): string
  {
    "$" + Decimal(i)
  }

  /** `$1`, …, `$n`. */
  function Placeholders(n: nat): seq<string>
  {
    seq(n, k requires 0 <= k < n => Placeholder(k + 1))
  }

  /** The print statement for a call of `simpleName::methodName` with `argCount`
      parameters, printing the Java expression `result` after `=>`. */
  function LogCode(simpleName: string, methodName: string, argCount: nat, result: string): string
  {
    StatementStart
      + "\"" + simpleName + "::" + methodName + "(\""
      + " + " + Join(Placeholders(argCount), ArgSeparator)
      + " + \")\"" + " + \" => \"" + " + " + result + ");"
  }

  /** Inserted after the body: prints the returned value `$_`. */
  function SuccessCode(simpleName: string, methodName: string, argCount: nat): string
  {
    LogCode(simpleName, methodName, argCount, "$_")
  }

  /** Installed as a catch clause: prints the exception `$ex` and throws it again. */
  function ErrorCode(simpleName: string, methodName: string, argCount: nat): string
  {
    "{ " + LogCode(simpleName, methodName, argCount, "$ex") + "; throw $ex; }"
  }

  /** `getCodeLogMethodArgsAndResult`: appends the pieces to a buffer, one
      placeholder per parameter with a separator before every one but the first. */
  method BuildLogCode(simpleName: string, methodName: string, argCount: nat, result: string) returns (code: string)
    ensures code == LogCode(simpleName, methodName, argCount, result)
  {
    code := StatementStart;
    code := code + "\"" + simpleName + "::" + methodName + "(\"";
    code := code + " + ";
    ghost var head := code;
    for i := 1 to argCount + 1
      invariant code == head + Join(Placeholders(i - 1), ArgSeparator)
    {
      ghost var before := code;
      if i != 1 {
        code := code + ArgSeparator;
      }
      code := code + "$" + Decimal(i);
      ArgumentStep(head, i, before, code);
    }
    ghost var args := code;
    code := code + " + \")\"";
    code := code + " + \" => \"";
    code := code + " + ";
    code := code + result;
    code := code + ");";
    LogCodeParts(simpleName, methodName, argCount, result, head, args, code);
  }

  /** One round of the argument loop appends the next placeholder to the list. */
  lemma ArgumentStep(head: string, i: nat, before: string, after: string)
    requires i >= 1
    requires before == head + Join(Placeholders(i - 1), ArgSeparator)
    requires after == before + (if i != 1 then ArgSeparator else "") + "$" + Decimal(i)
    ensures after == head + Join(Placeholders(i), ArgSeparator)
  {
    assert Placeholders(i) == Placeholders(i - 1) + [Placeholder(i)];
    if i != 1 {
      JoinSnoc(Placeholders(i - 1), Placeholder(i), ArgSeparator);
    } else {
      assert Placeholders(i) == [Placeholder(i)];
    }
  }

  lemma LogCodeParts(simpleName: string, methodName: string, argCount: nat, result: string,
                     head: string, args: string, code: string)
    requires head == StatementStart + "\"" + simpleName + "::" + methodName + "(\"" + " + "
    requires args == head + Join(Placeholders(argCount), ArgSeparator)
    requires code == args + " + \")\"" + " + \" => \"" + " + " + result + ");"
    ensures code == LogCode(simpleName, methodName, argCount, result)
  {
  }

  /** The placeholders name distinct parameters: `$i` and `$j` differ for `i != j`. */
  lemma PlaceholdersDistinct(i: nat, j: nat)
    requires i != j
    ensures Placeholder(i) != Placeholder(j)
  {
    if Placeholder(i) == Placeholder(j) {
      assert Decimal(i) == Placeholder(i)[1..];
      assert Decimal(j) == Placeholder(j)[1..];
      DecimalRoundTrip(i);
      DecimalRoundTrip(j);
    }
  }

  /** The `k`-th placeholder (from 0) denotes parameter `k + 1`: its digits read back as `k + 1`. */
  lemma PlaceholderNumber(n: nat, k: nat)
    requires k < n
    ensures var p := Placeholders(n)[k];
            |p| >= 2 && p[0] == '$' && DecimalValue(p[1..]) == k + 1
  {
    var p := Placeholders(n)[k];
    assert p[1..] == Decimal(k + 1);
    DecimalRoundTrip(k + 1);
  }

  /** With one or more parameters the argument text is `$1`, then `$2` and so on,
      each preceded by the separator. */
  lemma {:induction false} ArgumentListSnoc(n: nat)
    requires n >= 1
    ensures Join(Placeholders(n + 1), ArgSeparator) == Join(Placeholders(n), ArgSeparator) + ArgSeparator + Placeholder(n + 1)
  {
    assert Placeholders(n + 1) == Placeholders(n) + [Placeholder(n + 1)];
    JoinSnoc(Placeholders(n), Placeholder(n + 1), ArgSeparator);
  }

  /** Without parameters the argument text is empty, so the ` + ` before it and
      the ` + ` after it meet: the statement holds `"(" +  + ")"`. */
  lemma NoArgumentText(simpleName: string, methodName: string, result: string)
    ensures LogCode(simpleName, methodName, 0, result) ==
            StatementStart + "\"" + simpleName + "::" + methodName + "(\"" + " + " + " + \")\""
              + " + \" => \"" + " + " + result + ");"
  {
    assert Placeholders(0) == [];
  }

  /** Shape of every statement: it starts with `System.err.println(` and the
      log prefix, names `simpleName::methodName(`, and ends with
      ` + " => " + <result>);`. */
  lemma LogCodeShape(simpleName: string, methodName: string, argCount: nat, result: string)
    ensures var code := LogCode(simpleName, methodName, argCount, result);
            var call := "\"" + simpleName + "::" + methodName + "(";
            var tail := " + \" => \" + " + result + ");";
            && |StatementStart| + |call| + |tail| <= |code|
            && code[..|StatementStart|] == StatementStart
            && code[|StatementStart|..|StatementStart| + |call|] == call
            && code[|code| - |tail|..] == tail
  {
    var code := LogCode(simpleName, methodName, argCount, result);
    var call := "\"" + simpleName + "::" + methodName + "(";
    var tail := " + \" => \" + " + result + ");";
    var middle := "\"" + " + " + Join(Placeholders(argCount), ArgSeparator) + " + \")\"";
    assert code == StatementStart + call + middle + tail;
  }

  /** The success and error statements differ only in the printed result. */
  lemma ResultOnlyDifference(simpleName: string, methodName: string, argCount: nat, r1: string, r2: string)
    ensures var c1 := LogCode(simpleName, methodName, argCount, r1);
            var c2 := LogCode(simpleName, methodName, argCount, r2);
            && |c1| - |r1| == |c2| - |r2|
            && c1[..|c1| - |r1| - 2] == c2[..|c2| - |r2| - 2]
            && c1[|c1| - |r1| - 2..|c1| - 2] == r1
            && c2[|c2| - |r2| - 2..|c2| - 2] == r2
  {
    var head := StatementStart
      + "\"" + simpleName + "::" + methodName + "(\""
      + " + " + Join(Placeholders(argCount), ArgSeparator)
      + " + \")\"" + " + \" => \"" + " + ";
    assert LogCode(simpleName, methodName, argCount, r1) == head + r1 + ");";
    assert LogCode(simpleName, methodName, argCount, r2) == head + r2 + ");";
  }
}

=== FILE: method_descs.dfy ===
/** Method selectors: the text `Owner::name(Type1, Type2)` and the value it
    parses to. The selector pattern is the fixed regular expression
    `([^:]+)::([^(]+)\(([^)]+)\)` matched against the whole text; it is
    deterministic, so it is modelled by direct scanning and then proved equal
    to the language the expression describes. */
module MethodDescs {
  import opened Wrappers
  import opened JavaStrings

  /** One requested interception target. */
  datatype MethodDesc = MethodDesc(className: string, methodName: string, methodArgs: seq<string>)

  /** `desc` matches the selector pattern as a whole, with `c`, `m` and `a`
      the text of its three groups. */
  predicate Matches(desc: string, c: string, m: string, a: string)
  {
    && desc == c + "::" + m + "(" + a + ")"
    && c != "" && ':' !in c
    && m != "" && '(' !in m
    && a != "" && ')' !in a
  }

  /** `Stream.of(a.split(",")).map(String::trim)`: the argument types, in order. */
  function ArgTypes(a: string): seq<string>
  {
    var pieces := Split(a, ',');
    seq(|pieces|, k requires 0 <= k < |pieces| => Trim(pieces[k]))
  }

  /** `parseMethodDesc`: the class is the text before the first `:`, which must
      be followed by a second `:`. */
  function ParseMethodDesc(desc: string): Option<MethodDesc>
  {
    match IndexOf(desc, ':')
    case None => None
    case Some(i) =>
      if i == 0 || i + 1 == |desc| || desc[i + 1] != ':' then None
      else ParseMethodPart(desc[..i], desc[i + 2..])
  }

  /** After `Owner::`: the method name is the non-empty text up to the next `(`. */
  function ParseMethodPart(c: string, rest: string): Option<MethodDesc>
  {
    match IndexOf(rest, '(')
    case None => None
    case Some(j) => if j == 0 then None else ParseArgPart(c, rest[..j], rest[j + 1..])
  }

  /** After `Owner::name(`: non-empty argument text without `)`, then the closing `)`. */
  function ParseArgPart(c: string, m: string, tail: string): Option<MethodDesc>
  {
    if |tail| < 2 || tail[|tail| - 1] != ')' || ')' in tail[..|tail| - 1] then None
    else Some(MethodDesc(c, m, ArgTypes(tail[..|tail| - 1])))
  }

  lemma ClassStep(desc: string, c: string, rest: string)
    requires desc == c + "::" + rest && c != "" && ':' !in c
    ensures ParseMethodDesc(desc) == ParseMethodPart(c, rest)
  {
    assert desc[..|c|] == c;
    IndexOfUnique(desc, ':', |c|);
    assert desc[|c| + 2..] == rest;
  }

  lemma MethodStep(c: string, rest: string, m: string, tail: string)
    requires rest == m + "(" + tail && m != "" && '(' !in m
    ensures ParseMethodPart(c, rest) == ParseArgPart(c, m, tail)
  {
    assert rest[..|m|] == m;
    IndexOfUnique(rest, '(', |m|);
    assert rest[|m| + 1..] == tail;
  }

  lemma ArgStep(c: string, m: string, a: string)
    requires a != "" && ')' !in a
    ensures ParseArgPart(c, m, a + ")") == Some(MethodDesc(c, m, ArgTypes(a)))
  {
    var tail := a + ")";
    assert tail[..|tail| - 1] == a;
  }

  /** Every decomposition the pattern allows is found, with the groups verbatim
      (class and method are not trimmed) and the argument text split and trimmed. */
  lemma ParseComplete(desc: string, c: string, m: string, a: string)
    requires Matches(desc, c, m, a)
    ensures ParseMethodDesc(desc) == Some(MethodDesc(c, m, ArgTypes(a)))
  {
    var rest := m + "(" + a + ")";
    assert desc == c + "::" + rest;
    ClassStep(desc, c, rest);
    assert rest == m + "(" + (a + ")");
    MethodStep(c, rest, m, a + ")");
    ArgStep(c, m, a);
  }

  /** Whatever the parser accepts matches the pattern, with the groups it returns. */
  lemma ParseSound(desc: string)
    requires ParseMethodDesc(desc).Some?
    ensures var d := ParseMethodDesc(desc).value;
            exists a :: Matches(desc, d.className, d.methodName, a) && d.methodArgs == ArgTypes(a)
  {
    var c, rest := ClassGroup(desc);
    var m, tail := MethodGroup(c, rest);
    var a := ArgGroup(c, m, tail);
    Assemble(desc, c, rest, m, tail, a);
  }

  lemma Assemble(desc: string, c: string, rest: string, m: string, tail: string, a: string)
    requires desc == c + "::" + rest && rest == m + "(" + tail && tail == a + ")"
    ensures desc == c + "::" + m + "(" + a + ")"
  {
  }

  lemma ClassGroup(desc: string) returns (c: string, rest: string)
    requires ParseMethodDesc(desc).Some?
    ensures desc == c + "::" + rest && c != "" && ':' !in c
    ensures ParseMethodDesc(desc) == ParseMethodPart(c, rest)
  {
    var i := IndexOf(desc, ':').value;
    c, rest := desc[..i], desc[i + 2..];
    CutAround(desc, i, "::");
  }

  lemma MethodGroup(c: string, rest: string) returns (m: string, tail: string)
    requires ParseMethodPart(c, rest).Some?
    ensures rest == m + "(" + tail && m != "" && '(' !in m
    ensures ParseMethodPart(c, rest) == ParseArgPart(c, m, tail)
  {
    var j := IndexOf(rest, '(').value;
    m, tail := rest[..j], rest[j + 1..];
    CutAround(rest, j, "(");
  }

  lemma ArgGroup(c: string, m: string, tail: string) returns (a: string)
    requires ParseArgPart(c, m, tail).Some?
    ensures tail == a + ")" && a != "" && ')' !in a
    ensures ParseArgPart(c, m, tail) == Some(MethodDesc(c, m, ArgTypes(a)))
  {
    a := tail[..|tail| - 1];
    assert tail[|tail| - 1..] == ")";
    assert tail == a + tail[|tail| - 1..];
  }

  /** The parser succeeds exactly on the texts the pattern matches. */
  lemma ParseSucceedsIff(desc: string)
    ensures ParseMethodDesc(desc).Some? <==> exists c, m, a :: Matches(desc, c, m, a)
  {
    if ParseMethodDesc(desc).Some? {
      ParseSound(desc);
    } else if exists c, m, a :: Matches(desc, c, m, a) {
      var c, m, a :| Matches(desc, c, m, a);
      ParseComplete(desc, c, m, a);
      assert false;
    }
  }

  /** An empty argument list does not match `[^)]+`: `Owner::m()` is rejected. */
  lemma EmptyArgListRejected(c: string, m: string)
    requires c != "" && ':' !in c && '(' !in m
    ensures ParseMethodDesc(c + "::" + m + "()") == None
  {
    var rest := m + "()";
    assert c + "::" + m + "()" == c + "::" + rest;
    ClassStep(c + "::" + m + "()", c, rest);
    if m == "" {
      assert IndexOf(rest, '(') == Some(0);
    } else {
      assert rest == m + "(" + ")";
      MethodStep(c, rest, m, ")");
    }
  }

  lemma OwnerEmptyArgsRejected()
    ensures ParseMethodDesc("Owner::m()") == None
  {
    assert "Owner::m()" == "Owner" + "::" + "m" + "()";
    EmptyArgListRejected("Owner", "m");
  }

  /** A lone comma is the way to select a method without parameters: splitting
      `","` drops both empty pieces, leaving no argument types. */
  lemma CommaOnlyMeansNoArgs(c: string, m: string)
    requires c != "" && ':' !in c && m != "" && '(' !in m
    ensures ParseMethodDesc(c + "::" + m + "(,)") == Some(MethodDesc(c, m, []))
  {
    assert c + "::" + m + "(,)" == c + "::" + m + "(" + "," + ")";
    ParseComplete(c + "::" + m + "(,)", c, m, ",");
    SplitOfSeparator(',');
    assert ArgTypes(",") == [];
  }

  /** Printing a selector and parsing it back gives the same selector, when the
      parts fit the grammar and every argument is already a trimmed, non-empty token. */
  lemma RoundTrip(c: string, m: string, args: seq<string>)
    requires c != "" && ':' !in c && m != "" && '(' !in m
    requires |args| >= 1
    requires forall k :: 0 <= k < |args| ==> args[k] != "" && IsTrimmed(args[k]) && ',' !in args[k] && ')' !in args[k]
    ensures ParseMethodDesc(c + "::" + m + "(" + Join(args, ",") + ")") == Some(MethodDesc(c, m, args))
  {
    var a := Join(args, ",");
    NotInJoin(args, ",", ')');
    assert a != "" by {
      if |args| > 1 {
        assert a == args[0] + "," + Join(args[1..], ",");
      }
    }
    ParseComplete(c + "::" + m + "(" + a + ")", c, m, a);
    ArgTypesOfTokens(args);
  }

  lemma ArgTypesOfTokens(args: seq<string>)
    requires |args| >= 1
    requires forall k :: 0 <= k < |args| ==> args[k] != "" && IsTrimmed(args[k]) && ',' !in args[k]
    ensures ArgTypes(Join(args, ",")) == args
  {
    SplitJoin(args, ',');
    ArgTypesOfTrimmedPieces(Join(args, ","), args);
  }

  lemma ArgTypesOfTrimmedPieces(a: string, pieces: seq<string>)
    requires Split(a, ',') == pieces
    requires forall k :: 0 <= k < |pieces| ==> IsTrimmed(pieces[k])
    ensures ArgTypes(a) == pieces
  {
    var r := ArgTypes(a);
    assert |r| == |pieces|;
    forall k | 0 <= k < |pieces| ensures r[k] == pieces[k] {
      TrimOfTrimmed(pieces[k]);
    }
  }

  /** A selector written with its argument list as `,`-joined pieces parses to
      the pieces, each trimmed. */
  lemma ParseJoinedPieces(desc: string, c: string, m: string, pieces: seq<string>, args: seq<string>)
    requires c != "" && ':' !in c && m != "" && '(' !in m
    requires |pieces| >= 1 && pieces[|pieces| - 1] != ""
    requires forall k :: 0 <= k < |pieces| ==> ',' !in pieces[k] && ')' !in pieces[k]
    requires desc == c + "::" + m + "(" + Join(pieces, [',']) + ")"
    requires |args| == |pieces| && forall k :: 0 <= k < |pieces| ==> args[k] == Trim(pieces[k])
    ensures ParseMethodDesc(desc) == Some(MethodDesc(c, m, args))
  {
    var a := Join(pieces, [',']);
    NotInJoin(pieces, [','], ')');
    assert a != "" by {
      if |pieces| > 1 {
        assert a == pieces[0] + [','] + Join(pieces[1..], [',']);
      }
    }
    ParseComplete(desc, c, m, a);
    SplitJoin(pieces, ',');
    ArgTypesOfPieces(a, pieces, args);
  }

  lemma ArgTypesOfPieces(a: string, pieces: seq<string>, args: seq<string>)
    requires Split(a, ',') == pieces
    requires |args| == |pieces| && forall k :: 0 <= k < |pieces| ==> args[k] == Trim(pieces[k])
    ensures ArgTypes(a) == args
  {
  }
}

=== FILE: premain.dfy ===
/** Agent start-up (`premain`): read the options, pick the selector texts
    (the built-in network defaults unless `methods` is given), parse them,
    drop the malformed ones, group the rest by class name and register the
    resulting transformer. */
module Premain {
  import opened Wrappers
  import opened JavaStrings
  import opened AgentArgs
  import opened MethodDescs
  import opened Transformers

  /** How the built-in selectors are written: owner, `::`, name, and the
      argument types in parentheses, separated by a comma and a space. */
  function Text(d: MethodDesc): string
  {
    d.className + "::" + d.methodName + "(" + Join(d.methodArgs, ", ") + ")"
  }

  function Texts(ds: seq<MethodDesc>): (r: seq<string>)
    ensures |r| == |ds|
  {
    if ds == [] then [] else [Text(ds[0])] + Texts(ds[1..])
  }

  /** The selectors behind `DEFAULT_INSTRUMENT_METHODS`: DNS lookups and
      socket bind/connect calls. */
  const DefaultDescs: seq<MethodDesc> := [
    MethodDesc("java.net.InetAddress", "getByName", ["java.lang.String"]),
    MethodDesc("java.net.InetAddress", "getByName", ["java.lang.String", "java.net.InetAddress"]),
    MethodDesc("java.net.Socket", "connect", ["java.net.SocketAddress", "int"]),
    MethodDesc("java.net.Socket", "bind", ["java.net.SocketAddress"]),
    MethodDesc("java.net.ServerSocket", "bind", ["java.net.SocketAddress", "int"]),
    MethodDesc("java.net.DatagramSocket", "bind", ["java.net.SocketAddress"]),
    MethodDesc("java.net.DatagramSocket", "connect", ["java.net.SocketAddress"]),
    MethodDesc("java.net.DatagramSocket", "connect", ["java.net.SocketAddress", "int"])
  ]

  /** `DEFAULT_INSTRUMENT_METHODS`: the eight texts, such as
      `java.net.Socket::connect(java.net.SocketAddress, int)`. They are built by
      `Text` from `DefaultDescs`, with `", "` between argument types, and so
      spell, character for character, the eight literals of the source in
      the same order. */
  const DefaultInstrumentMethods: seq<string> := Texts(DefaultDescs)

  /** The selector texts: the defaults when there is no `methods` option,
      otherwise its value split on `|`. */
  function MethodSelectors(opts: map<string, string>): seq<string>
  {
    if "methods" !in opts then DefaultInstrumentMethods else Split(opts["methods"], '|')
  }

  /** `.map(String::trim).map(parseMethodDesc)`: one optional selector per text. */
  function ParseEach(selectors: seq<string>): (r: seq<Option<MethodDesc>>)
    ensures |r| == |selectors|
  {
    if selectors == [] then [] else [ParseMethodDesc(Trim(selectors[0]))] + ParseEach(selectors[1..])
  }

  /** `.filter(Optional::isPresent).map(Optional::get)`. */
  function Present(os: seq<Option<MethodDesc>>): (r: seq<MethodDesc>)
    ensures |r| <= |os|
  {
    if os == [] then []
    else
      var rest := Present(os[1..]);
      match os[0]
      case None => rest
      case Some(d) => [d] + rest
  }

  /** The selectors that parse, in input order. */
  function ParseAll(selectors: seq<string>): (r: seq<MethodDesc>)
  {
    Present(ParseEach(selectors))
  }

  /** The selectors of `ds` that name class `c`, in their original order. */
  function SelectClass(ds: seq<MethodDesc>, c: string): seq<MethodDesc>
  {
    if ds == [] then []
    else SelectClass(ds[..|ds| - 1], c) + (if ds[|ds| - 1].className == c then [ds[|ds| - 1]] else [])
  }

  /** `Collectors.groupingBy(MethodDesc::getClassName)`: each selector is
      appended to the list under its class name. */
  function GroupByClass(ds: seq<MethodDesc>): map<string, seq<MethodDesc>>
  {
    if ds == [] then map[]
    else
      var m := GroupByClass(ds[..|ds| - 1]);
      var d := ds[|ds| - 1];
      m[d.className := (if d.className in m then m[d.className] else []) + [d]]
  }

  /** The transformer `premain` registers for the parsed options. */
  function Configure(opts: map<string, string>): Transformer
  {
    Transformer(DebugFlag(opts), GroupByClass(ParseAll(MethodSelectors(opts))))
  }

  /** `premain`: the transformer handed to `addTransformer`. */
  method Premain(agentArgs: Option<string>) returns (t: Transformer)
    ensures t == Configure(AgentArgsMap(agentArgs))
  {
    var agentArgsMap := ParseAgentArgs(agentArgs);
    t := Configure(agentArgsMap);
  }

  /** Filtering a concatenation filters each part on its own. */
  lemma {:induction false} PresentAppend(a: seq<Option<MethodDesc>>, b: seq<Option<MethodDesc>>)
    ensures Present(a + b) == Present(a) + Present(b)
  {
    if a != [] {
      assert (a + b)[1..] == a[1..] + b;
      assert (a + b)[0] == a[0];
      PresentAppend(a[1..], b);
    } else {
      assert a + b == b;
    }
  }

  /** Parsing a concatenation parses each part. */
  lemma {:induction false} ParseEachAppend(a: seq<string>, b: seq<string>)
    ensures ParseEach(a + b) == ParseEach(a) + ParseEach(b)
  {
    if a == [] {
      assert a + b == b;
    } else {
      assert (a + b)[1..] == a[1..] + b;
      ParseEachAppend(a[1..], b);
    }
  }

  /** The `i`-th result is the parse of the `i`-th trimmed text. */
  lemma {:induction false} ParseEachIndex(selectors: seq<string>, i: nat)
    requires i < |selectors|
    ensures ParseEach(selectors)[i] == ParseMethodDesc(Trim(selectors[i]))
  {
    if i > 0 {
      var rest := selectors[1..];
      ParseEachIndex(rest, i - 1);
      assert rest[i - 1] == selectors[i];
      assert ParseEach(selectors)[i] == ParseEach(rest)[i - 1];
    }
  }

  /** A malformed selector is dropped without affecting those around it: the
      result is the same as if it had not been written. */
  lemma ParseAllSkipsMalformed(a: seq<string>, s: string, b: seq<string>)
    requires ParseMethodDesc(Trim(s)) == None
    ensures ParseAll(a + [s] + b) == ParseAll(a + b)
  {
    var pa, ps, pb := ParseEach(a), ParseEach([s]), ParseEach(b);
    ParseEachAppend(a + [s], b);
    ParseEachAppend(a, [s]);
    assert ParseEach(a + [s] + b) == pa + ps + pb;
    PresentAppend(pa + ps, pb);
    PresentAppend(pa, ps);
    DroppedSelector(s);
    assert Present(pa + ps) == Present(pa);
    PresentAppend(pa, pb);
    ParseEachAppend(a, b);
  }

  lemma DroppedSelector(s: string)
    requires ParseMethodDesc(Trim(s)) == None
    ensures Present(ParseEach([s])) == []
  {
    assert [s][1..] == [];
  }

  /** Every parsed selector comes from one selector text, and every text that
      parses contributes its selector. */
  lemma {:induction false} PresentSpec(os: seq<Option<MethodDesc>>)
    ensures forall d :: d in Present(os) <==> Some(d) in os
  {
    if os != [] {
      PresentSpec(os[1..]);
      assert os == [os[0]] + os[1..];
    }
  }

  /** The selectors kept are exactly the parse results of the texts that parse. */
  lemma ParseAllSound(selectors: seq<string>)
    ensures forall d :: d in ParseAll(selectors) <==>
              exists i :: 0 <= i < |selectors| && ParseMethodDesc(Trim(selectors[i])) == Some(d)
  {
    var os := ParseEach(selectors);
    PresentSpec(os);
    forall d ensures Some(d) in os <==> exists i :: 0 <= i < |selectors| && ParseMethodDesc(Trim(selectors[i])) == Some(d) {
      if Some(d) in os {
        var i :| 0 <= i < |os| && os[i] == Some(d);
        ParseEachIndex(selectors, i);
      }
      if exists i :: 0 <= i < |selectors| && ParseMethodDesc(Trim(selectors[i])) == Some(d) {
        var i :| 0 <= i < |selectors| && ParseMethodDesc(Trim(selectors[i])) == Some(d);
        ParseEachIndex(selectors, i);
      }
    }
  }

  /** A class name is a key of the grouping exactly when some selector names it,
      and its list is then the selectors for it in input order, never empty. */
  lemma {:induction false} GroupByClassSpec(ds: seq<MethodDesc>)
    ensures forall c :: c in GroupByClass(ds) <==> SelectClass(ds, c) != []
    ensures forall c :: c in GroupByClass(ds) ==> GroupByClass(ds)[c] == SelectClass(ds, c)
  {
    if ds != [] {
      GroupByClassSpec(ds[..|ds| - 1]);
    }
  }

  /** `SelectClass` keeps exactly the selectors naming the class. */
  lemma {:induction false} SelectClassSpec(ds: seq<MethodDesc>, c: string)
    ensures forall d :: d in SelectClass(ds, c) ==> d in ds && d.className == c
    ensures SelectClass(ds, c) != [] <==> exists i :: 0 <= i < |ds| && ds[i].className == c
  {
    if ds != [] {
      var init := ds[..|ds| - 1];
      SelectClassSpec(init, c);
      if exists i :: 0 <= i < |init| && init[i].className == c {
        var i :| 0 <= i < |init| && init[i].className == c;
        assert ds[i] == init[i];
      }
      if exists i :: 0 <= i < |ds| && ds[i].className == c {
        var i :| 0 <= i < |ds| && ds[i].className == c;
        if i < |init| {
          assert ds[i] == init[i];
        }
      }
    }
  }

  /** Every selector is kept in the list of its own class. */
  lemma {:induction false} SelectMember(ds: seq<MethodDesc>, i: nat)
    requires i < |ds|
    ensures ds[i] in SelectClass(ds, ds[i].className)
  {
    if i < |ds| - 1 {
      var init := ds[..|ds| - 1];
      assert init[i] == ds[i];
      SelectMember(init, i);
    }
  }

  /** No selector is lost by the grouping: each one appears in the list under
      its own class name. */
  lemma GroupComplete(ds: seq<MethodDesc>, i: nat)
    requires i < |ds|
    ensures ds[i].className in GroupByClass(ds)
    ensures ds[i] in GroupByClass(ds)[ds[i].className]
  {
    GroupByClassSpec(ds);
    SelectMember(ds, i);
  }

  /** The keys of the grouping are the class names of the selectors. */
  lemma GroupKeys(ds: seq<MethodDesc>)
    ensures GroupByClass(ds).Keys == set i | 0 <= i < |ds| :: ds[i].className
  {
    GroupByClassSpec(ds);
    forall c ensures c in GroupByClass(ds) <==> exists i :: 0 <= i < |ds| && ds[i].className == c {
      SelectClassSpec(ds, c);
    }
  }

  /** Total length of all lists of a grouping. */
  ghost function Total(m: map<string, seq<MethodDesc>>): nat
    decreases |m.Keys|
  {
    if m == map[] then 0
    else
      var k :| k in m;
      assert (m - {k}).Keys < m.Keys;
      |m[k]| + Total(m - {k})
  }

  /** The total does not depend on which key is counted first. */
  lemma {:induction false} TotalRemove(m: map<string, seq<MethodDesc>>, k: string)
    requires k in m
    ensures Total(m) == |m[k]| + Total(m - {k})
    decreases |m.Keys|
  {
    var k' :| k' in m && Total(m) == |m[k']| + Total(m - {k'});
    if k' != k {
      assert (m - {k'}).Keys < m.Keys;
      assert (m - {k}).Keys < m.Keys;
      TotalRemove(m - {k'}, k);
      TotalRemove(m - {k}, k');
      assert m - {k'} - {k} == m - {k} - {k'};
    }
  }

  /** Grouping neither loses nor duplicates a selector: the list lengths add up
      to the number of selectors. */
  lemma {:induction false} GroupTotal(ds: seq<MethodDesc>)
    ensures Total(GroupByClass(ds)) == |ds|
  {
    if ds != [] {
      var init := ds[..|ds| - 1];
      var m := GroupByClass(init);
      var d := ds[|ds| - 1];
      var v := (if d.className in m then m[d.className] else []) + [d];
      GroupTotal(init);
      TotalRemove(m[d.className := v], d.className);
      assert m[d.className := v] - {d.className} == m - {d.className};
      if d.className in m {
        TotalRemove(m, d.className);
      } else {
        assert m - {d.className} == m;
      }
    }
  }

  /** The `debug` switch of the registered transformer. */
  lemma DebugSwitch(agentArgs: Option<string>)
    ensures Configure(AgentArgsMap(agentArgs)).debug <==>
              agentArgs.Some? &&
              var es := Entries(Split(agentArgs.value, ';'));
              exists i :: 0 <= i < |es| && es[i] == Some(("debug", "true")) &&
                          forall j :: i < j < |es| ==> !Sets(es[j], "debug")
  {
    if agentArgs.Some? {
      DebugFlagFromEntries(Entries(Split(agentArgs.value, ';')));
    }
  }

  /** A blank `methods` value selects nothing, not the defaults: its one empty
      selector does not parse. */
  lemma BlankMethodsSelectNothing(opts: map<string, string>)
    requires "methods" in opts && opts["methods"] == ""
    ensures Configure(opts).instructionMap == map[]
  {
    assert MethodSelectors(opts) == [""];
    assert Trim("") == "";
    assert ParseMethodDesc("") == None;
    assert ParseEach([""]) == [None];
  }

  lemma TrimSpaced(s: string)
    requires IsTrimmed(s) && s != []
    ensures Trim(" " + s) == s
  {
    TrimSkipsSpace(" ", s);
    TrimOfTrimmed(s);
  }

  /** A character as the defaults spell names: an ASCII letter, a digit, `_`,
      `$` or `.` (Java admits more letters in identifiers; these suffice here). */
  predicate IsAsciiNameChar(ch: char)
  {
    ('a' <= ch <= 'z') || ('A' <= ch <= 'Z') || ('0' <= ch <= '9') || ch == '_' || ch == '$' || ch == '.'
  }

  /** A non-empty name spelled with those characters only. */
  predicate IsAsciiQualifiedName(s: string)
  {
    s != "" && forall k :: 0 <= k < |s| ==> IsAsciiNameChar(s[k])
  }

  /** The spelling of the defaults: owner, name and every argument type are
      ASCII qualified names, and there is at least one argument type. */
  predicate WellSpelled(d: MethodDesc)
  {
    && IsAsciiQualifiedName(d.className)
    && IsAsciiQualifiedName(d.methodName)
    && d.methodArgs != []
    && forall k :: 0 <= k < |d.methodArgs| ==> IsAsciiQualifiedName(d.methodArgs[k])
  }

  /** An ASCII qualified name is trimmed and holds none of the selector's punctuation. */
  lemma QualifiedNameFacts(s: string)
    requires IsAsciiQualifiedName(s)
    ensures IsTrimmed(s) && ':' !in s && '(' !in s && ',' !in s && ')' !in s
  {
    assert !IsAsciiNameChar(':') && !IsAsciiNameChar('(') && !IsAsciiNameChar(',') && !IsAsciiNameChar(')');
  }

  /** Each argument type with the space that follows a comma in front of it. */
  function Spaced(xs: seq<string>): (r: seq<string>)
    ensures |r| == |xs| && forall k :: 0 <= k < |xs| ==> r[k] == " " + xs[k]
  {
    seq(|xs|, k requires 0 <= k < |xs| => " " + xs[k])
  }

  /** Joining with `, ` is joining the spaced types with `,`. */
  lemma {:induction false} JoinSpaced(xs: seq<string>)
    requires xs != []
    ensures Join(Spaced(xs), [',']) == " " + Join(xs, ", ")
  {
    if |xs| > 1 {
      assert Spaced(xs)[1..] == Spaced(xs[1..]);
      JoinSpaced(xs[1..]);
      assert Join(Spaced(xs), [',']) == " " + xs[0] + [','] + (" " + Join(xs[1..], ", "));
    }
  }

  /** `Text` is undone by parsing: a well-spelled selector, trimmed and parsed,
      comes back unchanged. */
  lemma TextParses(d: MethodDesc)
    requires WellSpelled(d)
    ensures ParseMethodDesc(Trim(Text(d))) == Some(d)
  {
    var c, m, args := d.className, d.methodName, d.methodArgs;
    QualifiedNameFacts(c);
    QualifiedNameFacts(m);
    var pieces := ArgumentPieces(args);
    var text := Text(d);
    assert text[0] == c[0] && text[|text| - 1] == ')';
    TrimOfTrimmed(text);
    ParseJoinedPieces(text, c, m, pieces, args);
  }

  /** The argument list of `Text` read as `,`-separated pieces: the first type,
      then each further type after a space; trimming gives the types back. */
  lemma ArgumentPieces(args: seq<string>) returns (pieces: seq<string>)
    requires args != [] && forall k :: 0 <= k < |args| ==> IsAsciiQualifiedName(args[k])
    ensures Join(pieces, [',']) == Join(args, ", ")
    ensures |pieces| == |args| && pieces[|pieces| - 1] != ""
    ensures forall k :: 0 <= k < |pieces| ==> ',' !in pieces[k] && ')' !in pieces[k] && args[k] == Trim(pieces[k])
  {
    pieces := [args[0]] + Spaced(args[1..]);
    if |args| > 1 {
      JoinSpaced(args[1..]);
      assert pieces[1..] == Spaced(args[1..]);
    }
    forall k | 0 <= k < |pieces|
      ensures ',' !in pieces[k] && ')' !in pieces[k] && args[k] == Trim(pieces[k])
    {
      QualifiedNameFacts(args[k]);
      if k == 0 {
        TrimOfTrimmed(args[0]);
      } else {
        assert pieces[k] == " " + args[k];
        TrimSpaced(args[k]);
      }
    }
  }

  /** Well-spelled selectors written out and parsed again come back in order,
      none dropped. */
  lemma TextsParse(ds: seq<MethodDesc>)
    requires forall i :: 0 <= i < |ds| ==> WellSpelled(ds[i])
    ensures ParseAll(Texts(ds)) == ds
  {
    forall i | 0 <= i < |ds| ensures ParseMethodDesc(Trim(Texts(ds)[i])) == Some(ds[i]) {
      TextsIndex(ds, i);
      TextParses(ds[i]);
    }
    AllParse(Texts(ds), ds);
  }

  lemma {:induction false} TextsIndex(ds: seq<MethodDesc>, i: nat)
    requires i < |ds|
    ensures Texts(ds)[i] == Text(ds[i])
  {
    if i > 0 {
      TextsIndex(ds[1..], i - 1);
    }
  }

  /** When every text parses, the parsed selectors are the parse results in order. */
  lemma {:induction false} AllParse(selectors: seq<string>, ds: seq<MethodDesc>)
    requires |ds| == |selectors|
    requires forall i :: 0 <= i < |selectors| ==> ParseMethodDesc(Trim(selectors[i])) == Some(ds[i])
    ensures ParseAll(selectors) == ds
  {
    if selectors != [] {
      AllParse(selectors[1..], ds[1..]);
      assert ParseEach(selectors) == [Some(ds[0])] + ParseEach(selectors[1..]);
      assert ds == [ds[0]] + ds[1..];
    }
  }

  /** Every owner, name and argument type of the defaults is a qualified name. */
  lemma DefaultsWellSpelled()
    ensures forall i :: 0 <= i < |DefaultDescs| ==> WellSpelled(DefaultDescs[i])
  {
    OwnerNamesOk();
    DatagramOwnerNamesOk();
    MethodNamesOk();
    ArgumentNamesOk();
  }

  lemma OwnerNamesOk()
    ensures IsAsciiQualifiedName("java.net.InetAddress") && IsAsciiQualifiedName("java.net.Socket")
  {
  }

  lemma DatagramOwnerNamesOk()
    ensures IsAsciiQualifiedName("java.net.ServerSocket") && IsAsciiQualifiedName("java.net.DatagramSocket")
  {
  }

  lemma MethodNamesOk()
    ensures IsAsciiQualifiedName("getByName") && IsAsciiQualifiedName("connect") && IsAsciiQualifiedName("bind")
  {
  }

  lemma ArgumentNamesOk()
    ensures IsAsciiQualifiedName("java.lang.String") && IsAsciiQualifiedName("java.net.SocketAddress") && IsAsciiQualifiedName("int")
  {
  }

  /** All eight defaults parse, to `DefaultDescs`. */
  lemma DefaultsParse()
    ensures ParseAll(DefaultInstrumentMethods) == DefaultDescs
  {
    DefaultsWellSpelled();
    TextsParse(DefaultDescs);
  }

  /** Without a `methods` option the transformer instruments the defaults,
      grouped by owner: four classes, with two, two, one and three selectors. */
  lemma DefaultTable(opts: map<string, string>)
    requires "methods" !in opts
    ensures Configure(opts).instructionMap == DefaultGroups
  {
    DefaultsParse();
    DefaultGrouping();
  }

  /** With no options at all, or an empty option string, debugging is off and
      the defaults are instrumented. */
  lemma NoOptionsUseDefaults(agentArgs: Option<string>)
    requires agentArgs == None || agentArgs == Some("")
    ensures Configure(AgentArgsMap(agentArgs)) == Transformer(false, DefaultGroups)
  {
    if agentArgs.Some? {
      assert Split("", ';') == [""];
      NoEqualsRejected("");
      assert Entries([""]) == [None];
    }
    DefaultTable(AgentArgsMap(agentArgs));
  }

  const DefaultGroups: map<string, seq<MethodDesc>> := map[
    "java.net.InetAddress" := DefaultDescs[0..2],
    "java.net.Socket" := DefaultDescs[2..4],
    "java.net.ServerSocket" := DefaultDescs[4..5],
    "java.net.DatagramSocket" := DefaultDescs[5..8]
  ]

  lemma DefaultGrouping()
    ensures GroupByClass(DefaultDescs) == DefaultGroups
  {
    GroupRuns(DefaultDescs, "java.net.InetAddress", "java.net.Socket", "java.net.ServerSocket", "java.net.DatagramSocket");
  }

  /** Grouping eight selectors whose owners come in runs of two, two, one and
      three gives one list per run. */
  lemma GroupRuns(ds: seq<MethodDesc>, a: string, b: string, c: string, d: string)
    requires |ds| == 8 && a != b && a != c && a != d && b != c && b != d && c != d
    requires ds[0].className == a && ds[1].className == a
    requires ds[2].className == b && ds[3].className == b
    requires ds[4].className == c
    requires ds[5].className == d && ds[6].className == d && ds[7].className == d
    ensures GroupByClass(ds) == map[a := ds[0..2], b := ds[2..4], c := ds[4..5], d := ds[5..8]]
  {
    GroupFirstRuns(ds, a, b);
    GroupMiddleRuns(ds, a, b, c, d);
    GroupLastRun(ds, map[a := ds[0..2], b := ds[2..4], c := ds[4..5]], d);
    assert ds[..8] == ds;
  }

  lemma GroupLastRun(ds: seq<MethodDesc>, m: map<string, seq<MethodDesc>>, d: string)
    requires |ds| >= 8 && ds[6].className == d && ds[7].className == d
    requires GroupByClass(ds[..6]) == m[d := ds[5..6]]
    ensures GroupByClass(ds[..8]) == m[d := ds[5..8]]
  {
    var m6 := m[d := ds[5..6]];
    GroupSameKey(ds, 6, m6, 5);
    var m7 := m6[d := ds[5..7]];
    GroupSameKey(ds, 7, m7, 5);
    assert m7[d := ds[5..8]] == m[d := ds[5..8]];
  }

  lemma GroupFirstRun(ds: seq<MethodDesc>, a: string)
    requires |ds| >= 2 && ds[0].className == a && ds[1].className == a
    ensures GroupByClass(ds[..2]) == map[a := ds[0..2]]
  {
    var m0: map<string, seq<MethodDesc>> := map[];
    assert ds[..0] == [];
    GroupNewKey(ds, 0, m0);
    var m1 := m0[a := ds[0..1]];
    GroupSameKey(ds, 1, m1, 0);
  }

  lemma GroupMiddleRuns(ds: seq<MethodDesc>, a: string, b: string, c: string, d: string)
    requires |ds| >= 6 && a != c && a != d && b != c && b != d && c != d
    requires ds[4].className == c && ds[5].className == d
    requires GroupByClass(ds[..4]) == map[a := ds[0..2], b := ds[2..4]]
    ensures GroupByClass(ds[..6]) == map[a := ds[0..2], b := ds[2..4], c := ds[4..5], d := ds[5..6]]
  {
    var m4 := map[a := ds[0..2], b := ds[2..4]];
    GroupNewKey(ds, 4, m4);
    var m5 := m4[c := ds[4..5]];
    GroupNewKey(ds, 5, m5);
  }

  lemma GroupFirstRuns(ds: seq<MethodDesc>, a: string, b: string)
    requires |ds| >= 4 && a != b
    requires ds[0].className == a && ds[1].className == a
    requires ds[2].className == b && ds[3].className == b
    ensures GroupByClass(ds[..4]) == map[a := ds[0..2], b := ds[2..4]]
  {
    GroupFirstRun(ds, a);
    var m2 := map[a := ds[0..2]];
    GroupNewKey(ds, 2, m2);
    var m3 := m2[b := ds[2..3]];
    GroupSameKey(ds, 3, m3, 2);
  }

  /** The first selector of a class starts its list. */
  lemma GroupNewKey(ds: seq<MethodDesc>, k: nat, m: map<string, seq<MethodDesc>>)
    requires k < |ds| && GroupByClass(ds[..k]) == m && ds[k].className !in m
    ensures GroupByClass(ds[..k + 1]) == m[ds[k].className := ds[k..k + 1]]
  {
    GroupSnoc(ds, k);
    assert [] + [ds[k]] == ds[k..k + 1];
  }

  /** A later selector of a class extends its run. */
  lemma GroupSameKey(ds: seq<MethodDesc>, k: nat, m: map<string, seq<MethodDesc>>, i: nat)
    requires i <= k < |ds| && GroupByClass(ds[..k]) == m
    requires ds[k].className in m && m[ds[k].className] == ds[i..k]
    ensures GroupByClass(ds[..k + 1]) == m[ds[k].className := ds[i..k + 1]]
  {
    GroupSnoc(ds, k);
    assert ds[i..k] + [ds[k]] == ds[i..k + 1];
  }

  /** Grouping one more selector appends it to its class's list. */
  lemma GroupSnoc(ds: seq<MethodDesc>, k: nat)
    requires k < |ds|
    ensures var m := GroupByClass(ds[..k]);
            var c := ds[k].className;
            GroupByClass(ds[..k + 1]) == m[c := (if c in m then m[c] else []) + [ds[k]]]
  {
    assert ds[..k + 1][..k] == ds[..k];
  }
}

=== FILE: transformers.dfy ===
/** The class-file transformer the agent registers: for a class named in the
    instruction table it loads the class, tries every selector for that class
    in turn, and writes the class back out; for every other class it leaves
    the bytes alone. */
module Transformers {
  import opened Wrappers
  import opened JavaStrings
  import opened MethodDescs
  import opened Javassist
  import opened LogTemplates

  /** The registered transformer: the debug switch and the selectors grouped by class name. */
  datatype Transformer = Transformer(debug: bool, instructionMap: map<string, seq<MethodDesc>>)

  /** `getCtClass`: the name `int` is the primitive type, whatever the pool
      holds; any other name must be loadable, else the error message names it. */
  function ResolveType(pool: ClassPool, typeName: string): Result<CtType, string>
  {
    if typeName == "int" then Ok(IntType)
    else if typeName in pool.classes then Ok(ClassType(typeName))
    else Err("Class not found " + typeName)
  }

  /** The parameter types of a selector, resolved left to right; the first
      failure ends the resolution. */
  function ResolveTypes(pool: ClassPool, names: seq<string>): (r: Result<seq<CtType>, string>)
    ensures r.Ok? <==> forall i :: 0 <= i < |names| ==> ResolveType(pool, names[i]).Ok?
    ensures r.Ok? ==> |r.value| == |names| &&
                      forall i :: 0 <= i < |names| ==> r.value[i] == ResolveType(pool, names[i]).value
    ensures r.Err? ==> exists i :: 0 <= i < |names| && ResolveType(pool, names[i]).Err? &&
                                   r.error == ResolveType(pool, names[i]).error &&
                                   forall j :: 0 <= j < i ==> ResolveType(pool, names[j]).Ok?
  {
    if names == [] then Ok([])
    else
      match ResolveType(pool, names[0])
      case Err(e) => Err(e)
      case Ok(t) =>
        match ResolveTypes(pool, names[1..])
        case Err(e) => Err(e)
        case Ok(ts) => Ok([t] + ts)
  }

  /** `logReturn`: the print statement after the body, then the catch clause
      for `java.lang.Exception`. The first step that fails ends the attempt, and
      what was already applied stays applied. */
  function ReturnEdits(pool: ClassPool, className: string, m: CtMethod): seq<Edit>
  {
    var simple := pool.simpleName(className);
    var success := InsertAfter(m, SuccessCode(simple, m.name, |m.params|));
    var handler := AddCatch(m, ErrorCode(simple, m.name, |m.params|), ClassType(ExceptionClassName), "$ex");
    if !pool.accepts(success) then []
    else if ExceptionClassName !in pool.classes || !pool.accepts(handler) then [success]
    else [success, handler]
  }

  /** What `logReturn` adds to the method `m`: first the print statement for the
      returned value `$_`, then a catch clause for `java.lang.Exception`, bound to
      `$ex`, that prints it and throws it again. The catch clause is added exactly
      when the print statement compiled, the exception class loads and the
      clause compiles. */
  lemma ReturnEditsSpec(pool: ClassPool, className: string, m: CtMethod)
    ensures var es := ReturnEdits(pool, className, m);
            var simple := pool.simpleName(className);
            var success := InsertAfter(m, SuccessCode(simple, m.name, |m.params|));
            var handler := AddCatch(m, ErrorCode(simple, m.name, |m.params|), ClassType(ExceptionClassName), "$ex");
            && |es| <= 2
            && (forall e <- es :: e.target == m)
            && (es == [] <==> !pool.accepts(success))
            && (es != [] ==> es[0] == success)
            && (|es| == 2 <==>
                  pool.accepts(success) && ExceptionClassName in pool.classes && pool.accepts(handler))
            && (|es| == 2 ==>
                  && es[1] == handler
                  && es[1].AddCatch?
                  && es[1].exceptionType == ClassType(ExceptionClassName)
                  && es[1].exceptionName == "$ex"
                  && |es[1].code| >= 14
                  && es[1].code[|es[1].code| - 14..] == "; throw $ex; }")
  {
    var es := ReturnEdits(pool, className, m);
    if |es| == 2 {
      var simple := pool.simpleName(className);
      var log := LogCode(simple, m.name, |m.params|, "$ex");
      assert es[1].code == "{ " + log + "; throw $ex; }";
    }
  }

  /** `instrumentMethod`: the edits one selector makes to the class. A type that
      does not resolve or a method that is not declared is caught, and nothing
      is changed. */
  function MethodEdits(pool: ClassPool, className: string, desc: MethodDesc): seq<Edit>
  {
    match ResolveTypes(pool, desc.methodArgs)
    case Err(_) => []
    case Ok(params) =>
      match pool.declaredMethod(className, desc.methodName, params)
      case None => []
      case Some(m) => ReturnEdits(pool, className, m)
  }

  /** The edits the selectors make, one after another. */
  function ClassEdits(pool: ClassPool, className: string, descs: seq<MethodDesc>): seq<Edit>
  {
    if descs == [] then []
    else ClassEdits(pool, className, descs[..|descs| - 1]) + MethodEdits(pool, className, descs[|descs| - 1])
  }

  /** What `instrumentClass` returns: `null` when the class cannot be loaded or
      written, and otherwise the rewritten class with every edit applied. */
  function ClassBytes(pool: ClassPool, className: string, descs: seq<MethodDesc>): Option<Bytes>
  {
    if className !in pool.classes then None
    else pool.toBytecode(className, ClassEdits(pool, className, descs))
  }

  /** What `transform` returns for the internal (slash-separated) class name:
      `null`, meaning "unchanged", for a class without selectors. */
  function TransformResult(t: Transformer, pool: ClassPool, internalName: string): Option<Bytes>
  {
    var className := ReplaceChar(internalName, '/', '.');
    if className !in t.instructionMap then None
    else ClassBytes(pool, className, t.instructionMap[className])
  }

  /** `logReturn` on the method `m` of `ctClass`. */
  method LogReturn(pool: ClassPool, ctClass: CtClass, m: CtMethod)
    modifies ctClass
    ensures ctClass.edits == old(ctClass.edits) + ReturnEdits(pool, ctClass.name, m)
  {
    var simple := pool.simpleName(ctClass.name);
    var successCode := BuildLogCode(simple, m.name, |m.params|, "$_");
    var ok := ctClass.Apply(pool, InsertAfter(m, successCode));
    if !ok {
      return;
    }
    var logCode := BuildLogCode(simple, m.name, |m.params|, "$ex");
    var errorCode := "{ " + logCode + "; throw $ex; }";
    if ExceptionClassName !in pool.classes {
      return;
    }
    ok := ctClass.Apply(pool, AddCatch(m, errorCode, ClassType(ExceptionClassName), "$ex"));
  }

  /** `instrumentMethod` for one selector. */
  method InstrumentMethod(pool: ClassPool, ctClass: CtClass, desc: MethodDesc)
    modifies ctClass
    ensures ctClass.edits == old(ctClass.edits) + MethodEdits(pool, ctClass.name, desc)
  {
    var methodArgs := ResolveTypes(pool, desc.methodArgs);
    if methodArgs.Err? {
      return;
    }
    var ctMethod := pool.declaredMethod(ctClass.name, desc.methodName, methodArgs.value);
    if ctMethod.None? {
      return;
    }
    LogReturn(pool, ctClass, ctMethod.value);
  }

  /** `instrumentClass`: load the class, try every selector, write it out. */
  method InstrumentClass(pool: ClassPool, className: string, descs: seq<MethodDesc>) returns (byteCode: Option<Bytes>)
    ensures byteCode == ClassBytes(pool, className, descs)
  {
    var ctClass := Get(pool, className);
    if ctClass == null {
      return None;
    }
    for i := 0 to |descs|
      invariant ctClass.name == className
      invariant ctClass.edits == ClassEdits(pool, className, descs[..i])
    {
      InstrumentMethod(pool, ctClass, descs[i]);
      assert descs[..i + 1][..i] == descs[..i];
    }
    assert descs[..|descs|] == descs;
    byteCode := ctClass.ToBytecode(pool);
  }

  /** `Transformer.transform`. */
  method Transform(t: Transformer, pool: ClassPool, internalName: string) returns (r: Option<Bytes>)
    ensures r == TransformResult(t, pool, internalName)
  {
    var className := ReplaceChar(internalName, '/', '.');
    if className in t.instructionMap {
      r := InstrumentClass(pool, className, t.instructionMap[className]);
      return;
    }
    return None;
  }

  /** Selectors are tried independently: the edits for a list of selectors are
      the edits for its first part followed by those for the rest. */
  lemma {:induction false} ClassEditsAppend(pool: ClassPool, className: string, a: seq<MethodDesc>, b: seq<MethodDesc>)
    ensures ClassEdits(pool, className, a + b) == ClassEdits(pool, className, a) + ClassEdits(pool, className, b)
    decreases |b|
  {
    if b == [] {
      assert a + b == a;
    } else {
      var init := b[..|b| - 1];
      assert (a + b)[..|a + b| - 1] == a + init;
      ClassEditsAppend(pool, className, a, init);
    }
  }

  /** A selector whose types do not resolve, whose method is not declared or
      whose print statement does not compile changes nothing, and the selectors
      after it are tried as if it were absent. */
  lemma FailedSelectorSkipped(pool: ClassPool, className: string, a: seq<MethodDesc>, d: MethodDesc, b: seq<MethodDesc>)
    requires MethodEdits(pool, className, d) == []
    ensures ClassEdits(pool, className, a + [d] + b) == ClassEdits(pool, className, a + b)
  {
    var ad := a + [d];
    ClassEditsAppend(pool, className, ad, b);
    SkippedLast(pool, className, a, d);
    ClassEditsAppend(pool, className, a, b);
  }

  lemma SkippedLast(pool: ClassPool, className: string, a: seq<MethodDesc>, d: MethodDesc)
    requires MethodEdits(pool, className, d) == []
    ensures ClassEdits(pool, className, a + [d]) == ClassEdits(pool, className, a)
  {
    assert (a + [d])[..|a|] == a;
  }

  /** `m` is the method `getDeclaredMethod` returns for the name of `d` and the
      parameter types its argument type names resolve to. */
  predicate LooksUp(pool: ClassPool, className: string, d: MethodDesc, m: CtMethod)
  {
    && ResolveTypes(pool, d.methodArgs).Ok?
    && pool.declaredMethod(className, d.methodName, ResolveTypes(pool, d.methodArgs).value) == Some(m)
  }

  /** Every edit lands on a method that `getDeclaredMethod` returned for one of
      the selectors, looked up with that selector's resolved parameter types;
      at most two edits are made per selector. */
  lemma {:induction false} EditsTargetSelectedMethods(pool: ClassPool, className: string, descs: seq<MethodDesc>)
    ensures |ClassEdits(pool, className, descs)| <= 2 * |descs|
    ensures forall e :: e in ClassEdits(pool, className, descs) ==>
              exists i :: 0 <= i < |descs| && LooksUp(pool, className, descs[i], e.target)
  {
    if descs != [] {
      var init := descs[..|descs| - 1];
      var d := descs[|descs| - 1];
      EditsTargetSelectedMethods(pool, className, init);
      forall e | e in ClassEdits(pool, className, descs)
        ensures exists i :: 0 <= i < |descs| && LooksUp(pool, className, descs[i], e.target)
      {
        if e in ClassEdits(pool, className, init) {
          var i :| 0 <= i < |init| && LooksUp(pool, className, init[i], e.target);
          assert descs[i] == init[i];
        } else {
          var params := MethodEditTarget(pool, className, d, e);
          assert LooksUp(pool, className, descs[|descs| - 1], e.target);
        }
      }
    }
  }

  /** The method one selector edits is the one `getDeclaredMethod` returned for
      its name and the parameter types its argument type names resolve to. */
  lemma MethodEditTarget(pool: ClassPool, className: string, d: MethodDesc, e: Edit) returns (params: seq<CtType>)
    requires e in MethodEdits(pool, className, d)
    ensures ResolveTypes(pool, d.methodArgs) == Ok(params)
    ensures pool.declaredMethod(className, d.methodName, params) == Some(e.target)
  {
    params := ResolveTypes(pool, d.methodArgs).value;
  }

  /** A loadable class is written back out even when no selector changed it:
      the result is then the class file without edits, not `null`. */
  lemma NothingInstrumentedStillRebuilt(pool: ClassPool, className: string, descs: seq<MethodDesc>)
    requires className in pool.classes
    requires forall i :: 0 <= i < |descs| ==> MethodEdits(pool, className, descs[i]) == []
    ensures ClassBytes(pool, className, descs) == pool.toBytecode(className, [])
  {
    NoEdits(pool, className, descs);
  }

  lemma {:induction false} NoEdits(pool: ClassPool, className: string, descs: seq<MethodDesc>)
    requires forall i :: 0 <= i < |descs| ==> MethodEdits(pool, className, descs[i]) == []
    ensures ClassEdits(pool, className, descs) == []
  {
    if descs != [] {
      var init := descs[..|descs| - 1];
      assert forall i :: 0 <= i < |init| ==> init[i] == descs[i];
      NoEdits(pool, className, init);
    }
  }

  /** `transform` changes a class only when the dotted form of its name has an
      entry in the table and the pool can load it; every other class passes
      through untouched (`null`). */
  lemma PassThrough(t: Transformer, pool: ClassPool, internalName: string)
    ensures TransformResult(t, pool, internalName).Some? ==>
              var className := ReplaceChar(internalName, '/', '.');
              className in t.instructionMap && className in pool.classes && '/' !in className
  {
  }

  /** The table is consulted with every `/` of the internal name turned into `.`:
      a name already in dotted form is looked up as it is. */
  lemma DottedNameUnchanged(t: Transformer, pool: ClassPool, className: string)
    requires '/' !in className
    ensures TransformResult(t, pool, className) ==
              if className in t.instructionMap then ClassBytes(pool, className, t.instructionMap[className]) else None
  {
    ReplaceCharAbsent(className, '/', '.');
  }

  /** `int` resolves to the primitive type even in a pool that cannot load a
      class of that name; any other name resolves exactly when the pool can load it. */
  lemma ResolveTypeRule(pool: ClassPool, typeName: string)
    ensures typeName == "int" ==> ResolveType(pool, typeName) == Ok(IntType)
    ensures typeName != "int" ==> (ResolveType(pool, typeName).Ok? <==> typeName in pool.classes)
    ensures typeName != "int" && typeName in pool.classes ==> ResolveType(pool, typeName) == Ok(ClassType(typeName))
  {
  }
}

=== FILE: wrappers.dfy ===
/** Optional values and error-carrying results, standing for Java's
    `null` / `Optional` returns and for caught exceptions. */
module Wrappers {

  datatype Option<+T> = None | Some(value: T)

  datatype Result<+T, +E> = Ok(value: T) | Err(error: E)
}
